=== FILE: README.md ===
# FNAUTH request signing for the Flix client, in Dafny

This project models the request-signing core of the Flix client class in
`dialogue_relink/flix.py`. Every request to the Flix server except the one to `/authenticate`
carries three headers:

- an `Authorization` header `FNAUTH <access key id>:<signature>`;
- `Content-Type: application/json`;
- a `Date` header.

The signature is the base64 HMAC-SHA256, keyed by the secret access key, of a five-line
canonical string. The lines are:

1. the upper-cased HTTP method;
2. a content fingerprint, empty for falsy content or for a type other than `str`, `bytes` and `dict`;
3. the content type, present only with a fingerprint;
4. the request time in whole seconds, followed by `Z`;
5. the URL cut at its first `?`.

The access key, secret and expiry come from a credential store. The token manager refreshes
them by signing in again when a field is missing or the expiry is less than two hours away.

The model is split into modules that follow the code:

- `Signer` is `__fn_sign`. It covers the content fingerprint, the canonical string and the
  signature.
- `Credentials` is the store: `reset`, the state effects of `authenticate`, and
  `__get_token`. The store is an immutable record. Each operation returns the new record
  together with its result.
- `Headers` is `__get_headers`.
- `Paths` holds the URL templates of the four GET wrappers. It proves that every path reads back
  as the resource it names.
- `Requests` describes the signed headers those wrappers send.
- `Panels` is `format_panel_for_revision`.
- `Text`, `Digits`, `Hex` and `DateTimes` give the Python behaviour the core relies on:
  - `split`, stated against a reference `Join` that the code itself never calls;
  - ASCII `upper`;
  - `%0Nd` and `str(int)`;
  - `binascii.hexlify` and `hexdigest`;
  - `datetime.isoformat`;
  - fixed-layout `strptime`;
  - ordering of naive datetimes.
- `Foreign.Lib` is a record of functions standing for the library code the core calls:
  - MD5 (RFC 1321) and HMAC-SHA256 (RFC 2104);
  - base64 (section 4 of RFC 4648);
  - UTF-8 encoding;
  - `json.dumps`;
  - `strftime`.

  Every statement holds whatever these functions compute.
- `Errors` names the exceptions the core raises.

In three places the code does not do what its method names and call pattern lead a reader to expect, such as an all-or-nothing token refresh or a hash of any body. The model follows the code:

- A non-empty `str` body is not hashed. `hashlib.md5` rejects `str` under Python 3 with a
  `TypeError`, modelled as `TextNotHashable`. An empty `str` is falsy and signs as "no content".
  Text and bytes bodies therefore never yield equal fingerprints: the text fails.
- `authenticate` stores the identity, key and secret before it parses the expiry. An unparsable
  expiry therefore raises with a new key and secret stored beside the old expiry.
  `UnparsableExpiryLeavesPartialToken` states it.
- The refresh test reads `datetime.now()`, the local clock, while the request time is
  `datetime.utcnow()`. The model keeps the two clocks as separate parameters: `now` and `dt`.
  A refresh with no stored identity fails before any request. In the code that failure is a
  `TypeError` from concatenating `None`; here it is `MissingIdentity`.

## Model

| member | source | states |
|---|---|---|
| Text.Before | dialogue_relink/flix.py:134-135 | `url.split('?')[0]` is a prefix of the URL that holds no `?`; it is shorter than the URL exactly when a `?` occurs, and then the `?` follows it directly |
| Text.Split | dialogue_relink/flix.py:134 | `str.split` gives at least one piece; the first piece is the text before the first separator, and no piece holds the separator |
| Text.SplitJoin | dialogue_relink/flix.py:134 | splitting a join of separator-free pieces gives the pieces back |
| Text.JoinSplit | dialogue_relink/flix.py:134 | joining the pieces of a split gives the string back |
| Text.CountJoin | dialogue_relink/flix.py:117-136 | a join of separator-free pieces holds one separator fewer than it has pieces |
| Text.UpperAscii | dialogue_relink/flix.py:117 | `http_method.upper()` keeps the length, leaves no lower-case ASCII letter, and changes a character only by lowering its code by 32 |
| Text.UpperAsciiIdempotent | dialogue_relink/flix.py:117 | upper-casing an upper-cased method changes nothing |
| Text.UpperAsciiKeeps | dialogue_relink/flix.py:117 | a character that is not an ASCII letter occurs in the upper-cased method exactly when it occurs in the method |
| Digits.Pad | dialogue_relink/flix.py:133 | the zero-padded fields of `isoformat` have exactly the given width, are all digits, and read back as the number |
| Digits.PadReadDigits | dialogue_relink/flix.py:61-62 | every all-digit field that `strptime` reads is the padding of its own value |
| Digits.IntDecimal | dialogue_relink/flix.py:207-211 | `str.format` of an id is its canonical decimal text: digits, a leading minus exactly for a negative id, no leading zero, and `0` for zero |
| Digits.ReadIntDecimal | dialogue_relink/flix.py:207-211 | every formatted id reads back as the same integer |
| Hex.Hexlify | dialogue_relink/flix.py:123 | `binascii.hexlify` doubles the length and yields only lower-case hex codes |
| Hex.UnhexlifyHexlify | dialogue_relink/flix.py:123 | hexlified bytes decode back to the bytes |
| Hex.HexlifyUnhexlify | dialogue_relink/flix.py:123 | every decodable lower-case hex text is the hexlification of what it decodes to |
| Hex.HexlifyInjective | dialogue_relink/flix.py:123 | distinct bodies hexlify to distinct texts |
| Hex.HexDigest | dialogue_relink/flix.py:121-127 | `hexdigest` writes the digest itself in hex: twice as long, lower-case hex characters, each the code `hexlify` gives at that position |
| Hex.HexDigestInjective | dialogue_relink/flix.py:121-127 | distinct digests print as distinct hex texts |
| DateTimes.IsoSecondsHasNoDot | dialogue_relink/flix.py:133 | the whole-second part of `isoformat` holds no `.` and no newline |
| DateTimes.IsoFormatBeforeDot | dialogue_relink/flix.py:133 | `dt.isoformat().split('.')[0]` is the timestamp cut to whole seconds, with or without microseconds |
| DateTimes.ParsePrinted | dialogue_relink/flix.py:61-62 | `strptime` of a printed timestamp gives back the datetime without its microseconds |
| DateTimes.PrintParsed | dialogue_relink/flix.py:82-83 | a successful `strptime` read exactly the printed form of its result, which has no microseconds |
| DateTimes.YearStep | dialogue_relink/flix.py:73 | the days before the next year are the days before this one plus this year's length, leap years included |
| DateTimes.EarlierHasFewerMicros | dialogue_relink/flix.py:73 | an earlier datetime in Python's field-by-field order has the smaller microsecond count |
| DateTimes.EarlierIsMicrosOrder | dialogue_relink/flix.py:73 | comparing microsecond counts is exactly comparing datetimes with `<` |
| Signer.Md5Hex | dialogue_relink/flix.py:124 | an MD5 hex digest is 32 lower-case hex characters |
| Signer.Fingerprint | dialogue_relink/flix.py:118-127 | fails exactly for a non-empty `str`, with TextNotHashable; is empty exactly for falsy content or an unhandled type; otherwise is 32 lower-case hex characters: the MD5 of the hexlified bytes, or of the UTF-8 `json.dumps` of a non-empty dict |
| Signer.BytesFingerprintHashesHex | dialogue_relink/flix.py:122-124 | a bytes body is fingerprinted as the MD5 of its hexlification, a text twice as long that decodes back to the body |
| Signer.CanonicalLayout | dialogue_relink/flix.py:117-136 | the canonical string is the method, fingerprint, content type (or empty), timestamp with `Z`, and path, joined by newlines |
| Signer.CanonicalLinesRecovered | dialogue_relink/flix.py:117-136 | with a newline-free method, content type and URL part before the first `?`, splitting the canonical string at newlines recovers the five lines, and it holds exactly four newlines |
| Signer.CanonicalIgnoresQuery | dialogue_relink/flix.py:134-136 | appending any query string to a path leaves the canonical string unchanged |
| Signer.CanonicalIgnoresMicroseconds | dialogue_relink/flix.py:133 | timestamps equal to the second give equal canonical strings |
| Signer.Sign | dialogue_relink/flix.py:86-144 | fails exactly for a non-empty `str` body or an empty secret, the body checked first; otherwise is `FNAUTH <key>:` followed by the HMAC-SHA256 signature of the canonical string |
| Signer.SignIgnoresQueryAndMicroseconds | dialogue_relink/flix.py:133-144 | the Authorization value does not depend on the query string or the microseconds |
| Credentials.Reset | dialogue_relink/flix.py:176-184 | every attribute of the store is `None` afterwards |
| Credentials.ExpiryFromText | dialogue_relink/flix.py:61-62 | a parsed expiry has no microseconds and prints as the reply's text before its first `.` |
| Credentials.ExpiryFromIsoFormat | dialogue_relink/flix.py:61-62 | an expiry sent as `isoformat()` is stored as the same instant cut to whole seconds |
| Credentials.ExpiryIgnoresFraction | dialogue_relink/flix.py:78-83 | any text after the seconds and a `.` is discarded from the stored expiry |
| Credentials.Authenticate | dialogue_relink/flix.py:47-63 | a failed request returns `None` and changes nothing; otherwise identity, key and secret are stored, and the reply is returned with a complete token exactly when the expiry parses, else it raises UnparsableExpiry with identity, key and secret stored and the expiry unchanged |
| Credentials.GetToken | dialogue_relink/flix.py:65-84 | a token not due for refresh is returned with the store untouched; a due refresh fails without identity or without a reply, and otherwise succeeds exactly when the expiry parses, storing and returning the new key and secret; an unparsable expiry raises UnparsableExpiry with the new key and secret already stored and the old expiry kept |
| Credentials.ResetForcesFailingRefresh | dialogue_relink/flix.py:72-76 | after `reset` the next token request must refresh, and fails with the store still empty |
| Credentials.RefreshBoundary | dialogue_relink/flix.py:72-73 | the cached token is kept while `now + 2h` is at or before the expiry, equality included, and refreshed once the clock is one microsecond later |
| Credentials.RefreshIsDateTimeComparison | dialogue_relink/flix.py:72-73 | the refresh test on microsecond counts is `datetime.now() + timedelta(hours=2) > self.expiry` |
| Credentials.GetTokenLeavesCompleteToken | dialogue_relink/flix.py:72-84 | whenever a token is handed out the store holds all three token fields, with the key and secret handed out |
| Credentials.UnparsableExpiryLeavesPartialToken | dialogue_relink/flix.py:59-62 | after `reset`, an unparsable expiry raises and leaves an incomplete token: key and secret stored, no expiry |
| Headers.GetHeaders | dialogue_relink/flix.py:146-174 | the store ends as the token manager leaves it; token failures propagate; success means a usable token, a non-empty secret and no text body, and gives JSON content type, the formatted date and an FNAUTH value for the token's key; a signing failure raises the signer's error, TextNotHashable or EmptySecret |
| Headers.HeadersShareOneTimestamp | dialogue_relink/flix.py:161-173 | the Authorization value signs the same instant the Date header shows, under the header's content type |
| Headers.AuthorizationIgnoresMicroseconds | dialogue_relink/flix.py:161-171 | requests within the same second carry the same Authorization value |
| Paths.SequenceRevisionSegments | dialogue_relink/flix.py:207-211 | the sequence revision URL is its show, optional episode, sequence and revision segments, each after a `/` |
| Paths.RevisionPanelsSegments | dialogue_relink/flix.py:246-250 | the panels URL is those segments followed by `panels` |
| Paths.RevisionDialoguesSegments | dialogue_relink/flix.py:286-290 | the revision dialogues URL is those segments followed by `dialogues` |
| Paths.PanelDialoguesSegments | dialogue_relink/flix.py:326-330 | the panel dialogues URL has `panel/<id>/dialogues` after the sequence |
| Paths.PathIsSlashedSegments | dialogue_relink/flix.py:207-330 | each of the four templates is its segment list, each segment after a `/` |
| Paths.SegmentsAreClean | dialogue_relink/flix.py:207-330 | no segment of a template holds `/` or `?` |
| Paths.PathHasNoQuery | dialogue_relink/flix.py:207-330 | no template carries a query string, so the signature covers the whole path |
| Paths.SplitPath | dialogue_relink/flix.py:207-330 | splitting a path at `/` gives an empty lead and then exactly its segments |
| Paths.ParsePath | dialogue_relink/flix.py:207-330 | every path reads back as the resource, ids and optional episode it was built from |
| Paths.PathInjective | dialogue_relink/flix.py:207-330 | distinct resources have distinct paths |
| Paths.EpisodeSegmentIffGiven | dialogue_relink/flix.py:209-211 | the `episode` segment appears exactly when an episode id is given |
| Requests.WrapperHeadersSigned | dialogue_relink/flix.py:212 | a GET wrapper's headers fail only with the token or for an empty secret, and otherwise sign the method, two empty lines, the timestamp and the whole path |
| Requests.WrapperCanonical | dialogue_relink/flix.py:117-136 | the canonical string of a bodiless GET of a wrapper path is `GET`, `\n\n\n`, the timestamp, `Z\n` and the path |
| Panels.Get | dialogue_relink/flix.py:360-362 | `p.get(key)` is the stored value, or `None` when the key is missing |
| Panels.FormatPanelForRevision | dialogue_relink/flix.py:346-364 | one entry per panel, in order, each with the shared dialogue and the panel's duration, panel id and revision number |
| Panels.FormattedIsElementwise | dialogue_relink/flix.py:355-364 | a list of the panels' length holding each panel's revisioned form is the formatted list |
| Panels.FormattedAppend | dialogue_relink/flix.py:355-364 | formatting a concatenation of panel lists concatenates their formattings |
| Panels.RevisionKeepsPanelFields | dialogue_relink/flix.py:357-362 | the three copied fields are recovered exactly from a revisioned panel; the panel's other keys are dropped |
| Panels.RevisionSeesOnlyThreeKeys | dialogue_relink/flix.py:357-362 | panels agreeing on `duration`, `panel_id` and `revision_number` give the same entry |
| Panels.AsObjectLookup | dialogue_relink/flix.py:357-362 | the appended dict has exactly the keys `dialogue`, `duration`, `id` and `revision_number`, each holding its field |

## Left out

- A dict body holding a value `json.dumps` cannot serialise, such as bytes or a set, is not modelled. `json.dumps` raises `TypeError` there (line 126), and `Json.Value` cannot represent such a dict.
- HTTP: the `/authenticate` request, `raise_for_status`, the GET calls and their error and 401
  messages are not modelled. The reply to `/authenticate` is a parameter: a token, or none for a
  failed request.
- The Basic authorization header that `authenticate` builds (lines 41-46) is not modelled. It is
  only sent, never signed.
- `json.loads` of replies is not modelled. Panels arrive as maps from keys to JSON values.
- The GET wrappers' response handling is not modelled. Only their URLs and signed headers are.
- `create_new_sequence_revision` is not modelled. It is outside the signing core.
- MD5, HMAC-SHA256, base64, UTF-8, `json.dumps` and `strftime` are function parameters. Their
  internals are not modelled.
- The clocks `datetime.now()` and `datetime.utcnow()` are parameters.
- Concurrent callers racing on the shared store are not modelled. The store is threaded through
  pure functions.
- The refresh test's `now + 2h` is unbounded. Python raises `OverflowError` within two
  hours of year 9999; the model does not.
- Credentials.Authenticate: the reply always has the three string fields. A missing key (`KeyError`)
  or a non-string value is not modelled.
- Credentials.ExpiryFromText: reads only the zero-padded `YYYY-MM-DDTHH:MM:SS` layout in ASCII
  digits with an upper-case `T`. Python's `strptime` also accepts one-digit fields, a space-padded
  day, a lower-case `t` (its pattern ignores case) and non-ASCII Unicode digits. Each of those
  texts is `UnparsableExpiry` here.
- Text.UpperAscii: upper-cases ASCII letters only. Python's `str.upper` also maps non-ASCII letters.
- Ids given to the URL templates are integers. `str.format` would accept any object.
- JSON numbers are integers only. Floats are not modelled.
- The default arguments of the wrappers (`episode_id=None`, `revision_id=1`) are not modelled
  separately. The caller passes every field.

=== FILE: credentials.dfy ===
/** The credential store and the token manager: `reset`, the state effects of `authenticate`,
    and `__get_token`. The store is a record threaded through pure transition functions; the
    remote `/authenticate` reply and the clock are parameters. */
module Credentials {
  import opened Wrappers
  import opened Errors
  import opened DateTimes
  import Text

  /** The JSON body of a successful `/authenticate` reply. */
  datatype Token = Token(id: string, secretAccessKey: string, expiryDate: string)

  /** The six attributes of the client object; `None` is Python's `None`. */
  datatype Credentials = Credentials(
    hostname: Option<string>,
    login: Option<string>,
    password: Option<string>,
    key: Option<string>,
    secret: Option<string>,
    expiry: Option<DateTime>)

  /** `timedelta(hours=2)` in microseconds: the safety margin before expiry. */
  const RefreshMargin: int := 2 * 60 * 60 * 1000000

  /** The token fields are either all set or all unset. */
  predicate TokenComplete(c: Credentials) {
    c.key.Some? == c.secret.Some? && c.secret.Some? == c.expiry.Some?
  }

  /** The login identity a refresh needs is stored. */
  predicate HasIdentity(c: Credentials) {
    c.hostname.Some? && c.login.Some? && c.password.Some?
  }

  /** `reset` (also what `__init__` does): every attribute back to `None`, whatever it held. */
  function Reset(c: Credentials): (r: Credentials)
    ensures r.hostname.None? && r.login.None? && r.password.None?
    ensures r.key.None? && r.secret.None? && r.expiry.None?
  {
    Credentials(None, None, None, None, None, None)
  }

  /** `strptime(text.split('.')[0], '%Y-%m-%dT%H:%M:%S')`: the fraction of a second is dropped and
      the text before the first `.` is read. */
  function ExpiryFromText(text: string): (r: Option<DateTime>)
    ensures r.Some? ==> r.value.microsecond == 0
    ensures r.Some? ==> IsoSeconds(r.value) == Text.Before(text, '.')
  {
    PrintParsed(Text.Before(text, '.'));
    ParseIsoSeconds(Text.Before(text, '.'))
  }

  /** An expiry sent as `isoformat()` is read back as the same instant cut to whole seconds. */
  lemma ExpiryFromIsoFormat(dt: DateTime)
    ensures ExpiryFromText(IsoFormat(dt)) == Some(WholeSeconds(dt))
  {
    IsoFormatBeforeDot(dt);
    ParsePrinted(dt);
  }

  /** Whatever follows the first `.` of an expiry date is discarded: `2024-01-01T10:00:00.123456`
      is stored as 10:00:00 on 2024-01-01. */
  lemma ExpiryIgnoresFraction(dt: DateTime, fraction: string)
    ensures ExpiryFromText(IsoSeconds(dt) + "." + fraction) == Some(WholeSeconds(dt))
  {
    IsoSecondsHasNoDot(dt);
    Text.BeforeSeparator(IsoSeconds(dt), '.', fraction);
    assert IsoSeconds(dt) + "." + fraction == IsoSeconds(dt) + ['.'] + fraction;
    ParsePrinted(dt);
  }

  /** The state effects of `authenticate`. A failed request returns `None` and leaves the state
      alone. Otherwise the identity, key and secret are stored, and then the expiry is parsed: if
      it parses it is stored too and the reply is returned; if not, `strptime` raises with the
      expiry left as it was. */
  function Authenticate(c: Credentials, hostname: string, login: string, password: string,
                        reply: Option<Token>): (r: (Result<Option<Token>, Error>, Credentials))
    ensures reply.None? ==> r == (Success(None), c)
    ensures reply.Some? ==> r.1.hostname == Some(hostname) && r.1.login == Some(login) && r.1.password == Some(password)
    ensures reply.Some? ==> r.1.key == Some(reply.value.id) && r.1.secret == Some(reply.value.secretAccessKey)
    ensures reply.Some? ==> (r.0 == Success(reply) <==> ExpiryFromText(reply.value.expiryDate).Some?)
    ensures r.0 == Success(reply) && reply.Some? ==>
              && TokenComplete(r.1)
              && r.1.expiry == ExpiryFromText(reply.value.expiryDate)
              && IsoSeconds(r.1.expiry.value) == Text.Before(reply.value.expiryDate, '.')
    ensures r.0.Failure? ==> r.0.error == UnparsableExpiry && r.1.expiry == c.expiry
    ensures reply.Some? && ExpiryFromText(reply.value.expiryDate).None? ==>
              r == (Failure(UnparsableExpiry),
                    c.(hostname := Some(hostname), login := Some(login), password := Some(password),
                       key := Some(reply.value.id), secret := Some(reply.value.secretAccessKey)))
  {
    match reply
    case None => (Success(None), c)
    case Some(t) =>
      var signedIn := c.(hostname := Some(hostname), login := Some(login), password := Some(password),
                         key := Some(t.id), secret := Some(t.secretAccessKey));
      match ExpiryFromText(t.expiryDate)
      case None => (Failure(UnparsableExpiry), signedIn)
      case Some(e) => (Success(Some(t)), signedIn.(expiry := Some(e)))
  }

  /** The refresh test of `__get_token`: a token field is missing, or the clock plus the margin is
      strictly past the expiry. `now` is the local clock reading, in microseconds on the scale of
      `EpochMicros`. */
  predicate NeedsRefresh(c: Credentials, now: int) {
    c.key.None? || c.secret.None? || c.expiry.None? || now + RefreshMargin > EpochMicros(c.expiry.value)
  }

  /** `__get_token`. A token that is not due for refresh is returned from the store, which is not
      touched. Otherwise the stored identity signs in again (a missing one fails before any
      request) and the returned token is stored and handed out. */
  function GetToken(c: Credentials, now: int, reply: Option<Token>): (r: (Result<(string, string), Error>, Credentials))
    ensures !NeedsRefresh(c, now) ==> r == (Success((c.key.value, c.secret.value)), c)
    ensures NeedsRefresh(c, now) && !HasIdentity(c) ==> r == (Failure(MissingIdentity), c)
    ensures NeedsRefresh(c, now) && HasIdentity(c) && reply.None? ==> r == (Failure(NoToken), c)
    ensures NeedsRefresh(c, now) && HasIdentity(c) && reply.Some? ==>
              (r.0.Success? <==> ExpiryFromText(reply.value.expiryDate).Some?)
    ensures r.0.Success? && NeedsRefresh(c, now) ==>
              && reply.Some?
              && r.0.value == (reply.value.id, reply.value.secretAccessKey)
              && r.1 == c.(key := Some(reply.value.id), secret := Some(reply.value.secretAccessKey),
                           expiry := ExpiryFromText(reply.value.expiryDate))
    ensures NeedsRefresh(c, now) && HasIdentity(c) && reply.Some? && ExpiryFromText(reply.value.expiryDate).None? ==>
              r == (Failure(UnparsableExpiry), c.(key := Some(reply.value.id), secret := Some(reply.value.secretAccessKey)))
    ensures r.0.Failure? ==> r.1.expiry == c.expiry
  {
    if !NeedsRefresh(c, now) then (Success((c.key.value, c.secret.value)), c)
    else if !HasIdentity(c) then (Failure(MissingIdentity), c)
    else
      var auth := Authenticate(c, c.hostname.value, c.login.value, c.password.value, reply);
      match auth.0
      case Failure(e) => (Failure(e), auth.1)
      case Success(None) => (Failure(NoToken), auth.1)
      case Success(Some(t)) =>
        // the token is written to the store a second time, from the returned reply
        match ExpiryFromText(t.expiryDate)
        case None => (Failure(UnparsableExpiry), auth.1)
        case Some(e) =>
          (Success((t.id, t.secretAccessKey)), auth.1.(key := Some(t.id), secret := Some(t.secretAccessKey), expiry := Some(e)))
  }

  /** After `reset` the next token request always refreshes, and fails before any request
      because the identity is gone. */
  lemma ResetForcesFailingRefresh(c: Credentials, now: int, reply: Option<Token>)
    ensures NeedsRefresh(Reset(c), now)
    ensures GetToken(Reset(c), now, reply) == (Failure(MissingIdentity), Reset(c))
  {
  }

  /** The margin is strict: one microsecond before `expiry - 2h` and at `expiry - 2h` itself the
      cached token is used, one microsecond later it is refreshed. */
  lemma RefreshBoundary(c: Credentials)
    requires c.key.Some? && c.secret.Some? && c.expiry.Some?
    ensures !NeedsRefresh(c, EpochMicros(c.expiry.value) - RefreshMargin - 1)
    ensures !NeedsRefresh(c, EpochMicros(c.expiry.value) - RefreshMargin)
    ensures NeedsRefresh(c, EpochMicros(c.expiry.value) - RefreshMargin + 1)
  {
  }

  /** The refresh test on microsecond counts is Python's `datetime.now() + timedelta(hours=2) >
      self.expiry`, where `later` is the clock reading moved on by two hours. */
  lemma RefreshIsDateTimeComparison(c: Credentials, clock: DateTime, later: DateTime)
    requires c.key.Some? && c.secret.Some? && c.expiry.Some?
    requires EpochMicros(later) == EpochMicros(clock) + RefreshMargin
    ensures NeedsRefresh(c, EpochMicros(clock)) <==> Earlier(c.expiry.value, later)
  {
    EarlierIsMicrosOrder(c.expiry.value, later);
  }

  /** Whenever a token is handed out, the store holds a complete token. */
  lemma GetTokenLeavesCompleteToken(c: Credentials, now: int, reply: Option<Token>)
    requires GetToken(c, now, reply).0.Success?
    ensures TokenComplete(GetToken(c, now, reply).1)
    ensures GetToken(c, now, reply).1.key == Some(GetToken(c, now, reply).0.value.0)
    ensures GetToken(c, now, reply).1.secret == Some(GetToken(c, now, reply).0.value.1)
  {
  }

  /** An unparsable expiry leaves a key and a secret stored beside no expiry: `authenticate`
      writes them before `strptime` raises. */
  lemma UnparsableExpiryLeavesPartialToken(c: Credentials, hostname: string, login: string, password: string, t: Token)
    requires ExpiryFromText(t.expiryDate).None?
    ensures Authenticate(Reset(c), hostname, login, password, Some(t)).0 == Failure(UnparsableExpiry)
    ensures !TokenComplete(Authenticate(Reset(c), hostname, login, password, Some(t)).1)
  {
  }
}

=== FILE: datetime.dfy ===
/** The slice of Python's naive `datetime` the core relies on: `isoformat`, the fixed-form
    `strptime(..., '%Y-%m-%dT%H:%M:%S')`, and ordering. */
module DateTimes {
  import opened Wrappers
  import opened Digits
  import Text

  datatype Moment = Moment(year: nat, month: nat, day: nat, hour: nat, minute: nat, second: nat, microsecond: nat)

  predicate IsLeap(year: nat) {
    year % 4 == 0 && (year % 100 != 0 || year % 400 == 0)
  }

  function DaysInMonth(year: nat, month: nat): nat
    requires 1 <= month <= 12
  {
    if month == 2 then (if IsLeap(year) then 29 else 28)
    else if month == 4 || month == 6 || month == 9 || month == 11 then 30
    else 31
  }

  function DaysInYear(year: nat): nat {
    if IsLeap(year) then 366 else 365
  }

  /** The ranges the `datetime` constructor enforces. */
  predicate Proper(m: Moment) {
    && 1 <= m.year <= 9999
    && 1 <= m.month <= 12
    && 1 <= m.day <= DaysInMonth(m.year, m.month)
    && m.hour < 24
    && m.minute < 60
    && m.second < 60
    && m.microsecond < 1000000
  }

  type DateTime = m: Moment | Proper(m) witness Moment(1, 1, 1, 0, 0, 0, 0)

  /** `dt` with its microseconds dropped. */
  function WholeSeconds(dt: DateTime): DateTime {
    dt.(microsecond := 0)
  }

  /** `dt.isoformat()` up to the seconds: `%04d-%02d-%02dT%02d:%02d:%02d`. */
  function IsoSeconds(dt: DateTime): string {
    Pad(dt.year, 4) + "-" + Pad(dt.month, 2) + "-" + Pad(dt.day, 2) + "T"
    + Pad(dt.hour, 2) + ":" + Pad(dt.minute, 2) + ":" + Pad(dt.second, 2)
  }

  /** `dt.isoformat()` of a naive datetime: `.%06d` follows only when the microseconds are non-zero. */
  function IsoFormat(dt: DateTime): string {
    IsoSeconds(dt) + (if dt.microsecond != 0 then "." + Pad(dt.microsecond, 6) else "")
  }

  /** The fixed 19-character `YYYY-MM-DDTHH:MM:SS` layout. */
  predicate IsoShaped(s: string) {
    && |s| == 19
    && AllDigits(s[0..4]) && s[4] == '-'
    && AllDigits(s[5..7]) && s[7] == '-'
    && AllDigits(s[8..10]) && s[10] == 'T'
    && AllDigits(s[11..13]) && s[13] == ':'
    && AllDigits(s[14..16]) && s[16] == ':'
    && AllDigits(s[17..19])
  }

  /** `datetime.strptime(s, '%Y-%m-%dT%H:%M:%S')` on the zero-padded layout: the fields must form
      a real date and time, and the result has no microseconds. */
  function ParseIsoSeconds(s: string): Option<DateTime>
  {
    if !IsoShaped(s) then None
    else
      var m := Moment(ReadDigits(s[0..4]), ReadDigits(s[5..7]), ReadDigits(s[8..10]),
                      ReadDigits(s[11..13]), ReadDigits(s[14..16]), ReadDigits(s[17..19]), 0);
      if Proper(m) then Some(m) else None
  }

  lemma IsoSecondsPieces(dt: DateTime)
    ensures IsoShaped(IsoSeconds(dt))
    ensures IsoSeconds(dt)[0..4] == Pad(dt.year, 4)
    ensures IsoSeconds(dt)[5..7] == Pad(dt.month, 2)
    ensures IsoSeconds(dt)[8..10] == Pad(dt.day, 2)
    ensures IsoSeconds(dt)[11..13] == Pad(dt.hour, 2)
    ensures IsoSeconds(dt)[14..16] == Pad(dt.minute, 2)
    ensures IsoSeconds(dt)[17..19] == Pad(dt.second, 2)
  {
    var s := IsoSeconds(dt);
    assert s[0..4] == Pad(dt.year, 4);
    assert s[5..7] == Pad(dt.month, 2);
    assert s[8..10] == Pad(dt.day, 2);
    assert s[11..13] == Pad(dt.hour, 2);
    assert s[14..16] == Pad(dt.minute, 2);
    assert s[17..19] == Pad(dt.second, 2);
  }

  /** The seconds layout adds only its three separator characters to its fields. */
  lemma LayoutAvoids(y: string, mo: string, d: string, h: string, mi: string, se: string, ch: char)
    requires ch !in y && ch !in mo && ch !in d && ch !in h && ch !in mi && ch !in se
    requires ch != '-' && ch != 'T' && ch != ':'
    ensures ch !in y + "-" + mo + "-" + d + "T" + h + ":" + mi + ":" + se
  {
    assert ch !in y + "-" + mo + "-" + d + "T";
    assert ch !in h + ":" + mi + ":" + se;
    assert y + "-" + mo + "-" + d + "T" + h + ":" + mi + ":" + se
        == (y + "-" + mo + "-" + d + "T") + (h + ":" + mi + ":" + se);
  }

  /** The seconds text holds only digits and its three separator characters. */
  lemma IsoSecondsAvoids(dt: DateTime, ch: char)
    requires !IsDigit(ch) && ch != '-' && ch != 'T' && ch != ':'
    ensures ch !in IsoSeconds(dt)
  {
    var y, mo, d, h, mi, se := Pad(dt.year, 4), Pad(dt.month, 2), Pad(dt.day, 2), Pad(dt.hour, 2), Pad(dt.minute, 2), Pad(dt.second, 2);
    assert ch !in y by { PadAvoids(dt.year, 4, ch); }
    assert ch !in mo by { PadAvoids(dt.month, 2, ch); }
    assert ch !in d by { PadAvoids(dt.day, 2, ch); }
    assert ch !in h by { PadAvoids(dt.hour, 2, ch); }
    assert ch !in mi by { PadAvoids(dt.minute, 2, ch); }
    assert ch !in se by { PadAvoids(dt.second, 2, ch); }
    LayoutAvoids(y, mo, d, h, mi, se, ch);
  }

  /** The seconds text holds no `.`, so `split('.')[0]` leaves it whole. */
  lemma IsoSecondsHasNoDot(dt: DateTime)
    ensures '.' !in IsoSeconds(dt)
    ensures '\n' !in IsoSeconds(dt)
  {
    IsoSecondsAvoids(dt, '.');
    IsoSecondsAvoids(dt, '\n');
  }

  /** `dt.isoformat().split('.')[0]` is the isoformat up to the seconds, whatever the microseconds. */
  lemma IsoFormatBeforeDot(dt: DateTime)
    ensures Text.Before(IsoFormat(dt), '.') == IsoSeconds(dt)
  {
    var iso := IsoSeconds(dt);
    assert '.' !in iso by {
      IsoSecondsHasNoDot(dt);
    }
    if dt.microsecond != 0 {
      var frac := Pad(dt.microsecond, 6);
      assert IsoFormat(dt) == iso + ['.'] + frac;
      Text.BeforeSeparator(iso, '.', frac);
    } else {
      assert IsoFormat(dt) == iso;
    }
  }

  /** Parsing the printed seconds gives back the datetime without its microseconds. */
  lemma ParsePrinted(dt: DateTime)
    ensures ParseIsoSeconds(IsoSeconds(dt)) == Some(WholeSeconds(dt))
  {
    IsoSecondsPieces(dt);
  }

  /** A shaped string is its six fields and five separators. */
  lemma ShapedLayout(s: string)
    requires IsoShaped(s)
    ensures s == s[0..4] + "-" + s[5..7] + "-" + s[8..10] + "T" + s[11..13] + ":" + s[14..16] + ":" + s[17..19]
  {
    assert s == s[0..4] + [s[4]] + s[5..7] + [s[7]] + s[8..10] + [s[10]]
              + s[11..13] + [s[13]] + s[14..16] + [s[16]] + s[17..19];
  }

  /** A successful parse read exactly the printed form of its result. */
  lemma PrintParsed(s: string)
    ensures ParseIsoSeconds(s).Some? ==> IsoSeconds(ParseIsoSeconds(s).value) == s
    ensures ParseIsoSeconds(s).Some? ==> ParseIsoSeconds(s).value.microsecond == 0
  {
    if ParseIsoSeconds(s).None? {
      return;
    }
    var dt := ParseIsoSeconds(s).value;
    assert Pad(dt.year, 4) == s[0..4] by { PadReadDigits(s[0..4]); }
    assert Pad(dt.month, 2) == s[5..7] by { PadReadDigits(s[5..7]); }
    assert Pad(dt.day, 2) == s[8..10] by { PadReadDigits(s[8..10]); }
    assert Pad(dt.hour, 2) == s[11..13] by { PadReadDigits(s[11..13]); }
    assert Pad(dt.minute, 2) == s[14..16] by { PadReadDigits(s[14..16]); }
    assert Pad(dt.second, 2) == s[17..19] by { PadReadDigits(s[17..19]); }
    ShapedLayout(s);
  }

  /** `_days_before_year`: the days in all years before `year`. */
  function DaysBeforeYear(year: nat): int
    requires year >= 1
  {
    var y := year - 1;
    y * 365 + y / 4 - y / 100 + y / 400
  }

  /** `_days_before_month`: the days in the months of `year` before `month`. */
  function DaysBeforeMonth(year: nat, month: nat): nat
    requires 1 <= month <= 12
  {
    var common :=
      if month == 1 then 0 else if month == 2 then 31 else if month == 3 then 59
      else if month == 4 then 90 else if month == 5 then 120 else if month == 6 then 151
      else if month == 7 then 181 else if month == 8 then 212 else if month == 9 then 243
      else if month == 10 then 273 else if month == 11 then 304 else 334;
    common + (if month > 2 && IsLeap(year) then 1 else 0)
  }

  /** `dt.toordinal()`: 0001-01-01 is day 1. */
  function Ordinal(dt: DateTime): int {
    DaysBeforeYear(dt.year) + DaysBeforeMonth(dt.year, dt.month) + dt.day
  }

  /** Microseconds since 0001-01-01T00:00:00, the count that `timedelta` arithmetic moves along. */
  function EpochMicros(dt: DateTime): int {
    ((((Ordinal(dt) - 1) * 24 + dt.hour) * 60 + dt.minute) * 60 + dt.second) * 1000000 + dt.microsecond
  }

  /** Python's `a < b` on naive datetimes: field by field, most significant first. */
  predicate Earlier(a: DateTime, b: DateTime) {
    if a.year != b.year then a.year < b.year
    else if a.month != b.month then a.month < b.month
    else if a.day != b.day then a.day < b.day
    else if a.hour != b.hour then a.hour < b.hour
    else if a.minute != b.minute then a.minute < b.minute
    else if a.second != b.second then a.second < b.second
    else a.microsecond < b.microsecond
  }

  lemma YearStep(year: nat)
    requires year >= 1
    ensures DaysBeforeYear(year + 1) == DaysBeforeYear(year) + DaysInYear(year)
  {
    var y := year - 1;
    Quarter(y);
    Century(y);
    Quadricentury(y);
    DivisorsNest(year);
    var leap := if IsLeap(year) then 1 else 0;
    var q := (if year % 4 == 0 then 1 else 0) - (if year % 100 == 0 then 1 else 0) + (if year % 400 == 0 then 1 else 0);
    assert q == leap;
    calc {
      DaysBeforeYear(year + 1);
      year * 365 + year / 4 - year / 100 + year / 400;
      y * 365 + 365 + (y / 4 - y / 100 + y / 400) + q;
      DaysBeforeYear(year) + DaysInYear(year);
    }
  }

  /** A multiple of 400 is a multiple of 100, which is a multiple of 4. */
  lemma DivisorsNest(year: nat)
    ensures year % 400 == 0 ==> year % 100 == 0
    ensures year % 100 == 0 ==> year % 4 == 0
  {
    if year % 400 == 0 {
      assert year == 100 * (4 * (year / 400));
    }
    if year % 100 == 0 {
      assert year == 4 * (25 * (year / 100));
    }
  }

  lemma Quarter(y: nat)
    ensures (y + 1) / 4 == y / 4 + (if (y + 1) % 4 == 0 then 1 else 0)
  {
    var q, r := y / 4, y % 4;
    assert y == 4 * q + r;
    if r == 3 {
      assert y + 1 == 4 * (q + 1);
    } else {
      assert y + 1 == 4 * q + (r + 1);
    }
  }

  lemma Century(y: nat)
    ensures (y + 1) / 100 == y / 100 + (if (y + 1) % 100 == 0 then 1 else 0)
  {
    var q, r := y / 100, y % 100;
    assert y == 100 * q + r;
    if r == 99 {
      assert y + 1 == 100 * (q + 1);
    } else {
      assert y + 1 == 100 * q + (r + 1);
    }
  }

  lemma Quadricentury(y: nat)
    ensures (y + 1) / 400 == y / 400 + (if (y + 1) % 400 == 0 then 1 else 0)
  {
    var q, r := y / 400, y % 400;
    assert y == 400 * q + r;
    if r == 399 {
      assert y + 1 == 400 * (q + 1);
    } else {
      assert y + 1 == 400 * q + (r + 1);
    }
  }

  lemma {:induction false} YearMonotone(y1: nat, y2: nat)
    requires 1 <= y1 <= y2
    ensures DaysBeforeYear(y1) <= DaysBeforeYear(y2)
    decreases y2 - y1
  {
    if y1 < y2 {
      YearStep(y1);
      YearMonotone(y1 + 1, y2);
    }
  }

  lemma MonthStep(year: nat, m1: nat, m2: nat)
    requires 1 <= m1 < m2 <= 12
    ensures DaysBeforeMonth(year, m1) + DaysInMonth(year, m1) <= DaysBeforeMonth(year, m2)
  {
  }

  lemma DayOfYearBounds(dt: DateTime)
    ensures 1 <= DaysBeforeMonth(dt.year, dt.month) + dt.day <= DaysInYear(dt.year)
  {
  }

  /** A datetime earlier in Python's order has the smaller microsecond count. */
  lemma EarlierHasFewerMicros(a: DateTime, b: DateTime)
    requires Earlier(a, b)
    ensures EpochMicros(a) < EpochMicros(b)
  {
    if a.year < b.year {
      DayOfYearBounds(a);
      DayOfYearBounds(b);
      YearStep(a.year);
      YearMonotone(a.year + 1, b.year);
      assert Ordinal(a) < Ordinal(b);
    } else if a.year == b.year && a.month < b.month {
      MonthStep(a.year, a.month, b.month);
      assert Ordinal(a) < Ordinal(b);
    }
  }

  /** Comparing microsecond counts is comparing datetimes: the count orders datetimes exactly as
      Python's `<` does. */
  lemma EarlierIsMicrosOrder(a: DateTime, b: DateTime)
    ensures Earlier(a, b) <==> EpochMicros(a) < EpochMicros(b)
  {
    if Earlier(a, b) {
      EarlierHasFewerMicros(a, b);
    } else if Earlier(b, a) {
      EarlierHasFewerMicros(b, a);
    } else {
      assert a == b;
    }
  }
}

=== FILE: digits.dfy ===
/** Decimal digits: Python's `%0Nd` padding, `str(int)` and reading digits back. */
module Digits {
  import opened Wrappers

  predicate IsDigit(ch: char) {
    '0' <= ch <= '9'
  }

  predicate AllDigits(s: string) {
    forall i :: 0 <= i < |s| ==> IsDigit(s[i])
  }

  function DigitChar(d: nat): (ch: char)
    requires d < 10
    ensures IsDigit(ch)
  {
    ('0' as int + d) as char
  }

  function DigitValue(ch: char): (d: nat)
    requires IsDigit(ch)
    ensures d < 10
  {
    ch as int - '0' as int
  }

  function Pow10(n: nat): (r: nat)
    ensures r >= 1
  {
    if n == 0 then 1 else 10 * Pow10(n - 1)
  }

  /** The number an all-digit string spells, most significant digit first (the empty string spells 0). */
  function ReadDigits(s: string): (r: nat)
    requires AllDigits(s)
    ensures r < Pow10(|s|)
  {
    if |s| == 0 then 0 else 10 * ReadDigits(s[..|s| - 1]) + DigitValue(s[|s| - 1])
  }

  /** `'%0*d' % (width, n)`: `n` in exactly `width` digits with leading zeros. */
  function Pad(n: nat, width: nat): (r: string)
    requires n < Pow10(width)
    ensures |r| == width
    ensures AllDigits(r)
    ensures ReadDigits(r) == n
  {
    if width == 0 then ""
    else
      var r := Pad(n / 10, width - 1) + [DigitChar(n % 10)];
      assert r[..|r| - 1] == Pad(n / 10, width - 1);
      r
  }

  /** Padding is the exact inverse of reading: a digit string is the padding of its own value. */
  lemma {:induction false} PadReadDigits(s: string)
    requires AllDigits(s)
    ensures Pad(ReadDigits(s), |s|) == s
    decreases |s|
  {
    if |s| > 0 {
      var front := s[..|s| - 1];
      PadReadDigits(front);
      var n := ReadDigits(s);
      assert n / 10 == ReadDigits(front);
      assert DigitChar(n % 10) == s[|s| - 1];
      assert front + [s[|s| - 1]] == s;
    }
  }

  /** A padded number holds no character other than digits. */
  lemma PadAvoids(n: nat, width: nat, ch: char)
    requires n < Pow10(width)
    requires !IsDigit(ch)
    ensures ch !in Pad(n, width)
  {
  }

  /** `str(n)` for a natural number: its decimal digits with no leading zero. */
  function Decimal(n: nat): (r: string)
    ensures |r| >= 1
    ensures AllDigits(r)
    ensures ReadDigits(r) == n
    ensures n > 0 ==> r[0] != '0'
    decreases n
  {
    if n < 10 then [DigitChar(n)]
    else
      var r := Decimal(n / 10) + [DigitChar(n % 10)];
      assert r[..|r| - 1] == Decimal(n / 10);
      r
  }

  /** `str(i)` for any integer: a minus sign before the digits of a negative number. */
  function IntDecimal(i: int): (r: string)
    ensures |r| >= 1
    ensures forall k :: 0 <= k < |r| ==> IsDigit(r[k]) || (k == 0 && r[k] == '-')
    ensures r[0] == '-' <==> i < 0
    ensures i > 0 ==> r[0] != '0'
    ensures i < 0 ==> |r| >= 2 && r[1] != '0'
    ensures i == 0 ==> r == "0"
  {
    if i < 0 then "-" + Decimal(-i) else Decimal(i)
  }

  /** Reads an optionally signed run of decimal digits. */
  function ReadInt(s: string): Option<int>
  {
    if |s| >= 2 && s[0] == '-' && AllDigits(s[1..]) then Some(-(ReadDigits(s[1..]) as int))
    else if |s| >= 1 && AllDigits(s) then Some(ReadDigits(s))
    else None
  }

  /** Every integer is read back from its decimal text. */
  lemma ReadIntDecimal(i: int)
    ensures ReadInt(IntDecimal(i)) == Some(i)
  {
    if i < 0 {
      assert IntDecimal(i)[1..] == Decimal(-i);
    }
  }
}

=== FILE: foreign.dfy ===
/** JSON values as `json.loads` produces them; Python's `None` is `Null`. */
module Json {

  datatype Value =
    | Null
    | Bool(b: bool)
    | Number(n: int)
    | Str(s: string)
    | Array(items: seq<Value>)
    | Object(fields: seq<(string, Value)>)
}

/** The library code the core calls but whose internals are not modelled: MD5 (RFC 1321),
    HMAC-SHA256 (RFC 2104), base64 (section 4 of RFC 4648), UTF-8 encoding, `json.dumps`
    and `strftime`. Each is a parameter, so every statement holds whatever they compute. */
module Foreign {
  import opened Hex
  import Json
  import opened DateTimes

  /** An MD5 digest is 16 bytes. */
  type Md5Digest = d: seq<byte> | |d| == 16 witness seq(16, _ => 0)

  /** An HMAC-SHA256 digest is 32 bytes. */
  type Sha256Digest = d: seq<byte> | |d| == 32 witness seq(32, _ => 0)

  datatype Lib = Lib(
    /** `hashlib.md5(data).digest()`. */
    md5: seq<byte> -> Md5Digest,
    /** `hmac.new(key, msg, digestmod=hashlib.sha256).digest()`. */
    hmacSha256: (seq<byte>, seq<byte>) -> Sha256Digest,
    /** `base64.b64encode(data).decode('utf-8')`. */
    base64: seq<byte> -> string,
    /** `text.encode('utf-8')`. */
    utf8: string -> seq<byte>,
    /** `json.dumps(d)` of a dict, with its keys in insertion order. */
    jsonDumps: seq<(string, Json.Value)> -> string,
    /** `dt.strftime('%a, %d %b %Y %H:%M:%S GMT')`. */
    httpDate: DateTime -> string
  )
}

=== FILE: headers.dfy ===
/** `__get_headers`: the three headers of one signed request. */
module Headers {
  import opened Wrappers
  import opened Errors
  import opened DateTimes
  import opened Credentials
  import opened Signer
  import Foreign

  /** Both the signed content type and the `Content-Type` header. */
  const JsonContentType: string := "application/json"

  datatype Headers = Headers(authorization: string, contentType: string, date: string)

  /** One UTC timestamp `dt`, captured before the token is fetched, is both signed and sent as
      `Date`. A token or signing failure is raised, with whatever the token manager did to the
      store kept. */
  function GetHeaders(lib: Foreign.Lib, c: Credentials, content: Content, url: string, httpMethod: string,
                      dt: DateTime, now: int, reply: Option<Token>): (r: (Result<Headers, Error>, Credentials))
    ensures r.1 == GetToken(c, now, reply).1
    ensures GetToken(c, now, reply).0.Failure? ==> r.0 == Failure(GetToken(c, now, reply).0.error)
    ensures r.0.Success? ==>
              && GetToken(c, now, reply).0.Success?
              && r.0.value.contentType == "application/json"
              && r.0.value.date == lib.httpDate(dt)
              && Prefix(GetToken(c, now, reply).0.value.0) <= r.0.value.authorization
    ensures GetToken(c, now, reply).0.Success? ==>
              var (key, secret) := GetToken(c, now, reply).0.value;
              (r.0.Success? <==> |secret| > 0 && !(content.Str? && |content.text| > 0))
    ensures GetToken(c, now, reply).0.Success? && r.0.Failure? ==>
              var (key, secret) := GetToken(c, now, reply).0.value;
              r.0.error == Sign(lib, key, secret, url, content, httpMethod, JsonContentType, dt).error
  {
    var token := GetToken(c, now, reply);
    match token.0
    case Failure(e) => (Failure(e), token.1)
    case Success((key, secret)) =>
      match Sign(lib, key, secret, url, content, httpMethod, JsonContentType, dt)
      case Failure(e) => (Failure(e), token.1)
      case Success(authorization) => (Success(Headers(authorization, JsonContentType, lib.httpDate(dt))), token.1)
  }

  /** The Authorization header is the signature of the request under `application/json` at the
      same instant the Date header shows. */
  lemma HeadersShareOneTimestamp(lib: Foreign.Lib, c: Credentials, content: Content, url: string, httpMethod: string,
                                 dt: DateTime, now: int, reply: Option<Token>)
    requires GetHeaders(lib, c, content, url, httpMethod, dt, now, reply).0.Success?
    ensures var h := GetHeaders(lib, c, content, url, httpMethod, dt, now, reply).0.value;
            var (key, secret) := GetToken(c, now, reply).0.value;
            && Sign(lib, key, secret, url, content, httpMethod, h.contentType, dt) == Success(h.authorization)
            && h.date == lib.httpDate(dt)
  {
  }

  /** Two requests whose timestamps differ only below the second carry the same Authorization. */
  lemma AuthorizationIgnoresMicroseconds(lib: Foreign.Lib, c: Credentials, content: Content, url: string, httpMethod: string,
                                         dt1: DateTime, dt2: DateTime, now: int, reply: Option<Token>)
    requires WholeSeconds(dt1) == WholeSeconds(dt2)
    requires GetHeaders(lib, c, content, url, httpMethod, dt1, now, reply).0.Success?
    ensures GetHeaders(lib, c, content, url, httpMethod, dt2, now, reply).0.Success?
    ensures GetHeaders(lib, c, content, url, httpMethod, dt1, now, reply).0.value.authorization
            == GetHeaders(lib, c, content, url, httpMethod, dt2, now, reply).0.value.authorization
  {
    var (key, secret) := GetToken(c, now, reply).0.value;
    var md5 := Fingerprint(lib, content).value;
    CanonicalIgnoresMicroseconds(httpMethod, md5, JsonContentType, dt1, dt2, url);
  }
}

=== FILE: hex.dfy ===
/** Bytes and `binascii.hexlify`: lower-case Base16 (section 8 of RFC 4648, lower-case alphabet). */
module Hex {
  import opened Wrappers

  newtype byte = x: int | 0 <= x < 256

  /** The ASCII code of `0-9` or `a-f`. */
  predicate IsLowerHexCode(b: byte) {
    48 <= b <= 57 || 97 <= b <= 102
  }

  /** A character of `0-9` or `a-f`. */
  predicate IsLowerHexChar(ch: char) {
    '0' <= ch <= '9' || 'a' <= ch <= 'f'
  }

  /** The ASCII code of the lower-case hex digit of a nibble. */
  function NibbleCode(n: int): (b: byte)
    requires 0 <= n < 16
    ensures IsLowerHexCode(b)
  {
    if n < 10 then (48 + n) as byte else (87 + n) as byte
  }

  /** The value of a hex digit; `binascii.unhexlify` accepts both cases. */
  function NibbleValue(b: byte): Option<int>
  {
    if 48 <= b <= 57 then Some(b as int - 48)
    else if 97 <= b <= 102 then Some(b as int - 87)
    else if 65 <= b <= 70 then Some(b as int - 55)
    else None
  }

  /** `binascii.hexlify(data)`: two lower-case hex digit codes per byte, high nibble first. */
  function Hexlify(data: seq<byte>): (r: seq<byte>)
    ensures |r| == 2 * |data|
    ensures forall i :: 0 <= i < |r| ==> IsLowerHexCode(r[i])
  {
    if |data| == 0 then []
    else [NibbleCode(data[0] as int / 16), NibbleCode(data[0] as int % 16)] + Hexlify(data[1..])
  }

  /** `binascii.unhexlify(h)`: fails on odd length or a non-hex digit. */
  function Unhexlify(h: seq<byte>): Option<seq<byte>>
    decreases |h|
  {
    if |h| % 2 == 1 then None
    else if |h| == 0 then Some([])
    else
      var hi :- NibbleValue(h[0]);
      var lo :- NibbleValue(h[1]);
      var rest :- Unhexlify(h[2..]);
      Some([(hi * 16 + lo) as byte] + rest)
  }

  /** Decoding an encoding gives the bytes back. */
  lemma {:induction false} UnhexlifyHexlify(data: seq<byte>)
    ensures Unhexlify(Hexlify(data)) == Some(data)
    decreases |data|
  {
    if |data| > 0 {
      var h := Hexlify(data);
      assert h[2..] == Hexlify(data[1..]);
      UnhexlifyHexlify(data[1..]);
      assert [data[0]] + data[1..] == data;
    }
  }

  /** Encoding a decoding of lower-case hex gives the text back. */
  lemma {:induction false} HexlifyUnhexlify(h: seq<byte>)
    requires forall i :: 0 <= i < |h| ==> IsLowerHexCode(h[i])
    requires Unhexlify(h).Some?
    ensures Hexlify(Unhexlify(h).value) == h
    decreases |h|
  {
    if |h| > 0 {
      HexlifyUnhexlify(h[2..]);
      var data := Unhexlify(h).value;
      assert data[1..] == Unhexlify(h[2..]).value;
      assert h == [h[0], h[1]] + h[2..];
    }
  }

  /** Different bytes never share an encoding. */
  lemma HexlifyInjective(a: seq<byte>, b: seq<byte>)
    requires Hexlify(a) == Hexlify(b)
    ensures a == b
  {
    UnhexlifyHexlify(a);
    UnhexlifyHexlify(b);
  }

  /** `hexdigest()`: the hex digits of a digest as text. */
  function HexDigest(digest: seq<byte>): (r: string)
    ensures |r| == 2 * |digest|
    ensures forall i :: 0 <= i < |r| ==> IsLowerHexChar(r[i])
    ensures forall i :: 0 <= i < |r| ==> r[i] as int == Hexlify(digest)[i] as int
  {
    var h := Hexlify(digest);
    seq(|h|, i requires 0 <= i < |h| => h[i] as int as char)
  }

  /** Distinct digests print as distinct texts. */
  lemma HexDigestInjective(a: seq<byte>, b: seq<byte>)
    requires HexDigest(a) == HexDigest(b)
    ensures a == b
  {
    var ha, hb := Hexlify(a), Hexlify(b);
    assert |ha| == |hb|;
    forall i | 0 <= i < |ha|
      ensures ha[i] == hb[i]
    {
      assert ha[i] as int == HexDigest(a)[i] as int == hb[i] as int;
    }
    assert ha == hb;
    HexlifyInjective(a, b);
  }
}

=== FILE: panels.dfy ===
/** `format_panel_for_revision`: each panel the server returned becomes a revisioned panel
    carrying the shared dialogue and three of the panel's own fields. */
module Panels {
  import opened Wrappers
  import Json

  /** A panel as `json.loads` returns it: a dict from keys to JSON values. */
  type Panel = map<string, Json.Value>

  /** One entry of the list `format_panel_for_revision` builds, with its four keys. */
  datatype RevisionedPanel = RevisionedPanel(
    dialogue: Json.Value,
    duration: Json.Value,
    id: Json.Value,
    revisionNumber: Json.Value
  )

  /** `p.get(key)`: the value under `key`, or `None` when the key is missing. */
  function Get(p: Panel, key: string): (v: Json.Value)
    ensures key in p ==> v == p[key]
    ensures key !in p ==> v == Json.Null
  {
    if key in p then p[key] else Json.Null
  }

  /** The revisioned form of one panel. */
  function Revision(p: Panel, dialogue: Json.Value): RevisionedPanel
  {
    RevisionedPanel(dialogue, Get(p, "duration"), Get(p, "panel_id"), Get(p, "revision_number"))
  }

  /** The whole list, element by element and in order. */
  function Formatted(panels: seq<Panel>, dialogue: Json.Value): seq<RevisionedPanel>
  {
    if |panels| == 0 then [] else [Revision(panels[0], dialogue)] + Formatted(panels[1..], dialogue)
  }

  /** The loop of `format_panel_for_revision`: one appended entry per panel. */
  method FormatPanelForRevision(panels: seq<Panel>, dialogue: Json.Value) returns (r: seq<RevisionedPanel>)
    ensures |r| == |panels|
    ensures forall i :: 0 <= i < |r| ==> r[i].dialogue == dialogue
    ensures forall i :: 0 <= i < |r| ==> r[i].id == Get(panels[i], "panel_id")
    ensures forall i :: 0 <= i < |r| ==> r[i].duration == Get(panels[i], "duration")
    ensures forall i :: 0 <= i < |r| ==> r[i].revisionNumber == Get(panels[i], "revision_number")
    ensures r == Formatted(panels, dialogue)
  {
    r := [];
    var k := 0;
    while k < |panels|
      invariant 0 <= k <= |panels|
      invariant |r| == k
      invariant forall i :: 0 <= i < k ==> r[i] == Revision(panels[i], dialogue)
    {
      r := r + [Revision(panels[k], dialogue)];
      k := k + 1;
    }
    FormattedIsElementwise(panels, dialogue, r);
  }

  /** `Formatted` is characterised by its length and its elements. */
  lemma {:induction false} FormattedIsElementwise(panels: seq<Panel>, dialogue: Json.Value, r: seq<RevisionedPanel>)
    requires |r| == |panels|
    requires forall i :: 0 <= i < |r| ==> r[i] == Revision(panels[i], dialogue)
    ensures r == Formatted(panels, dialogue)
    decreases |panels|
  {
    if |panels| > 0 {
      FormattedIsElementwise(panels[1..], dialogue, r[1..]);
      assert r == [r[0]] + r[1..];
    }
  }

  /** Formatting a concatenation formats each part. */
  lemma {:induction false} FormattedAppend(a: seq<Panel>, b: seq<Panel>, dialogue: Json.Value)
    ensures Formatted(a + b, dialogue) == Formatted(a, dialogue) + Formatted(b, dialogue)
    decreases |a|
  {
    if |a| > 0 {
      assert (a + b)[0] == a[0];
      assert (a + b)[1..] == a[1..] + b;
      FormattedAppend(a[1..], b, dialogue);
      calc {
        Formatted(a + b, dialogue);
        [Revision(a[0], dialogue)] + Formatted(a[1..] + b, dialogue);
        [Revision(a[0], dialogue)] + (Formatted(a[1..], dialogue) + Formatted(b, dialogue));
        ([Revision(a[0], dialogue)] + Formatted(a[1..], dialogue)) + Formatted(b, dialogue);
      }
    } else {
      assert a + b == b;
    }
  }

  /** The panel fields a revisioned panel carries, under the panel's own key names. */
  function Recovered(rp: RevisionedPanel): Panel
  {
    map["duration" := rp.duration, "panel_id" := rp.id, "revision_number" := rp.revisionNumber]
  }

  /** The three copied fields of a panel that has them all are recovered exactly; the panel's
      other keys are dropped and the dialogue is the shared one. */
  lemma RevisionKeepsPanelFields(p: Panel, dialogue: Json.Value)
    requires "duration" in p && "panel_id" in p && "revision_number" in p
    ensures Recovered(Revision(p, dialogue)) == (map k | k in p && k in {"duration", "panel_id", "revision_number"} :: p[k])
    ensures Revision(p, dialogue).dialogue == dialogue
  {
    var want := map k | k in p && k in {"duration", "panel_id", "revision_number"} :: p[k];
    assert want.Keys == {"duration", "panel_id", "revision_number"};
  }

  /** Two panels agreeing on the three copied keys give the same revisioned panel. */
  lemma RevisionSeesOnlyThreeKeys(p: Panel, q: Panel, dialogue: Json.Value)
    requires forall k :: k in {"duration", "panel_id", "revision_number"} ==> Get(p, k) == Get(q, k)
    ensures Revision(p, dialogue) == Revision(q, dialogue)
  {
    assert Get(p, "duration") == Get(q, "duration");
    assert Get(p, "panel_id") == Get(q, "panel_id");
    assert Get(p, "revision_number") == Get(q, "revision_number");
  }

  /** The dict `format_panel_for_revision` appends, with its keys in insertion order. */
  function AsObject(rp: RevisionedPanel): seq<(string, Json.Value)>
  {
    [("dialogue", rp.dialogue), ("duration", rp.duration), ("id", rp.id), ("revision_number", rp.revisionNumber)]
  }

  /** The first value stored under `key` in a list of key/value pairs. */
  function Lookup(fields: seq<(string, Json.Value)>, key: string): Option<Json.Value>
  {
    if |fields| == 0 then None
    else if fields[0].0 == key then Some(fields[0].1)
    else Lookup(fields[1..], key)
  }

  /** Each of the four keys of the appended dict reads back its field, and no other key is present. */
  lemma AsObjectLookup(rp: RevisionedPanel, key: string)
    ensures Lookup(AsObject(rp), "dialogue") == Some(rp.dialogue)
    ensures Lookup(AsObject(rp), "duration") == Some(rp.duration)
    ensures Lookup(AsObject(rp), "id") == Some(rp.id)
    ensures Lookup(AsObject(rp), "revision_number") == Some(rp.revisionNumber)
    ensures key !in {"dialogue", "duration", "id", "revision_number"} ==> Lookup(AsObject(rp), key) == None
  {
    var o := AsObject(rp);
    var o1 := o[1..];
    var o2 := o1[1..];
    var o3 := o2[1..];
    assert o1 == [("duration", rp.duration), ("id", rp.id), ("revision_number", rp.revisionNumber)];
    assert o2 == [("id", rp.id), ("revision_number", rp.revisionNumber)];
    assert o3 == [("revision_number", rp.revisionNumber)];
    assert o3[1..] == [];
    assert Lookup(o3, key) == (if key == "revision_number" then Some(rp.revisionNumber) else None);
    assert Lookup(o2, key) == (if key == "id" then Some(rp.id) else Lookup(o3, key));
    assert Lookup(o1, key) == (if key == "duration" then Some(rp.duration) else Lookup(o2, key));
    assert Lookup(o2, "revision_number") == Lookup(o3, "revision_number");
    assert Lookup(o1, "id") == Lookup(o2, "id");
    assert Lookup(o1, "revision_number") == Lookup(o2, "revision_number");
  }
}

=== FILE: paths.dfy ===
/** The request paths built by the GET wrappers. Each wrapper formats one of two templates,
    the one with `/episode/{id}` exactly when an episode id is given. */
module Paths {
  import opened Wrappers
  import opened Digits
  import Text

  /** The resource a GET wrapper addresses; `episode` is the optional `episode_id`. */
  datatype Resource =
    | SequenceRevision(show: int, sequence: int, episode: Option<int>, revision: int)
    | RevisionPanels(show: int, sequence: int, episode: Option<int>, revision: int)
    | RevisionDialogues(show: int, sequence: int, episode: Option<int>, revision: int)
    | PanelDialogues(show: int, sequence: int, episode: Option<int>, panel: int)

  /** The common start of both templates: `/show/{show}`, then `/episode/{episode}` if given. */
  function ShowPath(show: int, episode: Option<int>): string {
    if episode.Some? then "/show/" + IntDecimal(show) + "/episode/" + IntDecimal(episode.value)
    else "/show/" + IntDecimal(show)
  }

  /** `get_sequence_revision_by_id`. */
  function SequenceRevisionPath(show: int, sequence: int, episode: Option<int>, revision: int): string {
    ShowPath(show, episode) + "/sequence/" + IntDecimal(sequence) + "/revision/" + IntDecimal(revision)
  }

  /** `get_sequence_revision_panels`. */
  function RevisionPanelsPath(show: int, sequence: int, episode: Option<int>, revision: int): string {
    ShowPath(show, episode) + "/sequence/" + IntDecimal(sequence) + "/revision/" + IntDecimal(revision) + "/panels"
  }

  /** `get_revision_dialogues`. */
  function RevisionDialoguesPath(show: int, sequence: int, episode: Option<int>, revision: int): string {
    ShowPath(show, episode) + "/sequence/" + IntDecimal(sequence) + "/revision/" + IntDecimal(revision) + "/dialogues"
  }

  /** `get_panel_dialogues`. */
  function PanelDialoguesPath(show: int, sequence: int, episode: Option<int>, panel: int): string {
    ShowPath(show, episode) + "/sequence/" + IntDecimal(sequence) + "/panel/" + IntDecimal(panel) + "/dialogues"
  }

  function Path(r: Resource): string {
    match r
    case SequenceRevision(s, q, e, v) => SequenceRevisionPath(s, q, e, v)
    case RevisionPanels(s, q, e, v) => RevisionPanelsPath(s, q, e, v)
    case RevisionDialogues(s, q, e, v) => RevisionDialoguesPath(s, q, e, v)
    case PanelDialogues(s, q, e, p) => PanelDialoguesPath(s, q, e, p)
  }

  /** The path segments after the leading `/`, an independent description of each template. */
  function Segments(r: Resource): seq<string> {
    HeadSegments(r.show, r.episode, r.sequence) + TailSegments(r)
  }

  /** The segments after `/sequence/{sequence}`. */
  function TailSegments(r: Resource): seq<string> {
    match r
    case SequenceRevision(_, _, _, v) => ["revision", IntDecimal(v)]
    case RevisionPanels(_, _, _, v) => ["revision", IntDecimal(v), "panels"]
    case RevisionDialogues(_, _, _, v) => ["revision", IntDecimal(v), "dialogues"]
    case PanelDialogues(_, _, _, p) => ["panel", IntDecimal(p), "dialogues"]
  }

  /** Reads a resource back from a path: the inverse of `Path`. */
  function ParseResource(url: string): Option<Resource> {
    var parts := Text.Split(url, '/');
    if parts[0] == "" then ParseSegments(parts[1..]) else None
  }

  function ParseSegments(xs: seq<string>): Option<Resource> {
    if |xs| < 2 || xs[0] != "show" then None
    else
      var show :- ReadInt(xs[1]);
      if |xs| >= 4 && xs[2] == "episode" then
        var episode :- ReadInt(xs[3]);
        ParseUnderSequence(show, Some(episode), xs[4..])
      else ParseUnderSequence(show, None, xs[2..])
  }

  function ParseUnderSequence(show: int, episode: Option<int>, xs: seq<string>): Option<Resource> {
    if |xs| < 4 || xs[0] != "sequence" then None
    else
      var sequence :- ReadInt(xs[1]);
      var id :- ReadInt(xs[3]);
      if xs[2] == "revision" && |xs| == 4 then Some(SequenceRevision(show, sequence, episode, id))
      else if xs[2] == "revision" && |xs| == 5 && xs[4] == "panels" then Some(RevisionPanels(show, sequence, episode, id))
      else if xs[2] == "revision" && |xs| == 5 && xs[4] == "dialogues" then Some(RevisionDialogues(show, sequence, episode, id))
      else if xs[2] == "panel" && |xs| == 5 && xs[4] == "dialogues" then Some(PanelDialogues(show, sequence, episode, id))
      else None
  }

  /** `/` before each segment. */
  function Slashed(xs: seq<string>): string {
    if |xs| == 0 then "" else "/" + xs[0] + Slashed(xs[1..])
  }

  lemma {:induction false} SlashedAppend(a: seq<string>, b: seq<string>)
    ensures Slashed(a + b) == Slashed(a) + Slashed(b)
    decreases |a|
  {
    if |a| == 0 {
      assert a + b == b;
    } else {
      assert (a + b)[0] == a[0];
      assert (a + b)[1..] == a[1..] + b;
      SlashedAppend(a[1..], b);
      calc {
        Slashed(a + b);
        "/" + a[0] + Slashed(a[1..] + b);
        "/" + a[0] + (Slashed(a[1..]) + Slashed(b));
        ("/" + a[0] + Slashed(a[1..])) + Slashed(b);
      }
    }
  }

  lemma {:induction false} SlashedIsJoin(xs: seq<string>)
    requires |xs| >= 1
    ensures Text.Join([""] + xs, '/') == Slashed(xs)
    decreases |xs|
  {
    assert ([""] + xs)[1..] == xs;
    if |xs| > 1 {
      SlashedIsJoin(xs[1..]);
      assert ([""] + xs[1..])[1..] == xs[1..];
    }
  }

  lemma SlashedPair(a: string, b: string)
    ensures Slashed([a, b]) == "/" + a + "/" + b
  {
    assert [a, b][1..] == [b];
    SlashedOne(b);
    assert Slashed([a, b]) == "/" + a + ("/" + b);
  }

  lemma SlashedOne(a: string)
    ensures Slashed([a]) == "/" + a
  {
    assert [a][1..] == [];
    assert Slashed([a]) == "/" + a + "";
  }

  /** The segments of `ShowPath` and `/sequence/{sequence}`. */
  function HeadSegments(show: int, episode: Option<int>, sequence: int): seq<string> {
    ["show", IntDecimal(show)]
    + (if episode.Some? then ["episode", IntDecimal(episode.value)] else [])
    + ["sequence", IntDecimal(sequence)]
  }

  /** A fixed word and an id, each after a `/`. */
  lemma SlashedWordId(word: string, id: int)
    ensures Slashed([word, IntDecimal(id)]) == ("/" + word + "/") + IntDecimal(id)
  {
    SlashedPair(word, IntDecimal(id));
  }

  lemma ShowPathSlashed(show: int, episode: Option<int>)
    ensures Slashed(["show", IntDecimal(show)] + (if episode.Some? then ["episode", IntDecimal(episode.value)] else []))
         == ShowPath(show, episode)
  {
    var a := ["show", IntDecimal(show)];
    assert Slashed(a) == "/show/" + IntDecimal(show) by {
      SlashedWordId("show", show);
      assert "/" + "show" + "/" == "/show/";
    }
    if episode.Some? {
      var b := ["episode", IntDecimal(episode.value)];
      assert Slashed(b) == "/episode/" + IntDecimal(episode.value) by {
        SlashedWordId("episode", episode.value);
        assert "/" + "episode" + "/" == "/episode/";
      }
      SlashedAppend(a, b);
    } else {
      assert a + [] == a;
    }
  }

  lemma HeadIsSlashed(show: int, episode: Option<int>, sequence: int)
    ensures Slashed(HeadSegments(show, episode, sequence)) == ShowPath(show, episode) + "/sequence/" + IntDecimal(sequence)
  {
    var ab := ["show", IntDecimal(show)] + (if episode.Some? then ["episode", IntDecimal(episode.value)] else []);
    var c := ["sequence", IntDecimal(sequence)];
    ShowPathSlashed(show, episode);
    assert Slashed(c) == "/sequence/" + IntDecimal(sequence) by {
      SlashedWordId("sequence", sequence);
      assert "/" + "sequence" + "/" == "/sequence/";
    }
    SlashedAppend(ab, c);
  }

  lemma SlashedTriple(a: string, b: string, c: string)
    ensures Slashed([a, b, c]) == "/" + a + "/" + b + "/" + c
  {
    assert [a, b, c][1..] == [b, c];
    SlashedPair(b, c);
    assert Slashed([a, b, c]) == "/" + a + ("/" + b + "/" + c);
  }

  /** The head segments followed by `tail`. */
  lemma HeadThen(show: int, episode: Option<int>, sequence: int, tail: seq<string>)
    ensures Slashed(HeadSegments(show, episode, sequence) + tail)
         == ShowPath(show, episode) + "/sequence/" + IntDecimal(sequence) + Slashed(tail)
  {
    HeadIsSlashed(show, episode, sequence);
    SlashedAppend(HeadSegments(show, episode, sequence), tail);
  }

  /** A template whose pieces after the head are `/word/`, an id and `/last` lists the head
      segments, then the word, the id and the last word. */
  lemma TemplateOfThree(show: int, sequence: int, episode: Option<int>, w: string, d: string, l: string,
                        word: string, last: string)
    requires w == "/" + word + "/" && l == "/" + last
    ensures ShowPath(show, episode) + "/sequence/" + IntDecimal(sequence) + w + d + l
         == Slashed(HeadSegments(show, episode, sequence) + [word, d, last])
  {
    var h := ShowPath(show, episode) + "/sequence/" + IntDecimal(sequence);
    HeadThen(show, episode, sequence, [word, d, last]);
    SlashedTriple(word, d, last);
    assert h + w + d + l == h + ("/" + word + "/" + d + "/" + last);
  }

  /** The same for a template ending in `/word/` and an id. */
  lemma TemplateOfTwo(show: int, sequence: int, episode: Option<int>, w: string, d: string, word: string)
    requires w == "/" + word + "/"
    ensures ShowPath(show, episode) + "/sequence/" + IntDecimal(sequence) + w + d
         == Slashed(HeadSegments(show, episode, sequence) + [word, d])
  {
    var h := ShowPath(show, episode) + "/sequence/" + IntDecimal(sequence);
    HeadThen(show, episode, sequence, [word, d]);
    SlashedPair(word, d);
    assert h + w + d == h + ("/" + word + "/" + d);
  }

  lemma SequenceRevisionSegments(show: int, sequence: int, episode: Option<int>, revision: int)
    ensures SequenceRevisionPath(show, sequence, episode, revision)
         == Slashed(HeadSegments(show, episode, sequence) + ["revision", IntDecimal(revision)])
  {
    TemplateOfTwo(show, sequence, episode, "/revision/", IntDecimal(revision), "revision");
  }

  lemma RevisionPanelsSegments(show: int, sequence: int, episode: Option<int>, id: int)
    ensures RevisionPanelsPath(show, sequence, episode, id)
         == Slashed(HeadSegments(show, episode, sequence) + ["revision", IntDecimal(id), "panels"])
  {
    TemplateOfThree(show, sequence, episode, "/revision/", IntDecimal(id), "/panels", "revision", "panels");
  }

  lemma RevisionDialoguesSegments(show: int, sequence: int, episode: Option<int>, id: int)
    ensures RevisionDialoguesPath(show, sequence, episode, id)
         == Slashed(HeadSegments(show, episode, sequence) + ["revision", IntDecimal(id), "dialogues"])
  {
    TemplateOfThree(show, sequence, episode, "/revision/", IntDecimal(id), "/dialogues", "revision", "dialogues");
  }

  lemma PanelDialoguesSegments(show: int, sequence: int, episode: Option<int>, id: int)
    ensures PanelDialoguesPath(show, sequence, episode, id)
         == Slashed(HeadSegments(show, episode, sequence) + ["panel", IntDecimal(id), "dialogues"])
  {
    TemplateOfThree(show, sequence, episode, "/panel/", IntDecimal(id), "/dialogues", "panel", "dialogues");
  }

  /** Each template is its segments, each preceded by `/`. */
  lemma PathIsSlashedSegments(r: Resource)
    ensures Path(r) == Slashed(Segments(r))
  {
    match r
    case SequenceRevision(s, q, e, v) => SequenceRevisionSegments(s, q, e, v);
    case RevisionPanels(s, q, e, v) => RevisionPanelsSegments(s, q, e, v);
    case RevisionDialogues(s, q, e, v) => RevisionDialoguesSegments(s, q, e, v);
    case PanelDialogues(s, q, e, p) => PanelDialoguesSegments(s, q, e, p);
  }

  /** A segment that neither splits the path nor starts a query. */
  predicate Clean(x: string) {
    '/' !in x && '?' !in x
  }

  lemma DecimalIsClean(i: int)
    ensures Clean(IntDecimal(i))
  {
    var d := IntDecimal(i);
    forall k | 0 <= k < |d|
      ensures d[k] != '/' && d[k] != '?'
    {
      assert IsDigit(d[k]) || d[k] == '-';
    }
  }

  predicate AllClean(xs: seq<string>) {
    forall i :: 0 <= i < |xs| ==> Clean(xs[i])
  }

  lemma AllCleanAppend(a: seq<string>, b: seq<string>)
    requires AllClean(a) && AllClean(b)
    ensures AllClean(a + b)
  {
    forall i | 0 <= i < |a + b|
      ensures Clean((a + b)[i])
    {
      if i >= |a| {
        assert (a + b)[i] == b[i - |a|];
      }
    }
  }

  /** A fixed word followed by a decimal id. */
  lemma WordAndId(word: string, id: int)
    requires Clean(word)
    ensures AllClean([word, IntDecimal(id)])
  {
    DecimalIsClean(id);
  }

  lemma HeadIsClean(show: int, episode: Option<int>, sequence: int)
    ensures AllClean(HeadSegments(show, episode, sequence))
  {
    var b: seq<string> := if episode.Some? then ["episode", IntDecimal(episode.value)] else [];
    WordAndId("show", show);
    WordAndId("sequence", sequence);
    if episode.Some? {
      WordAndId("episode", episode.value);
    }
    AllCleanAppend(["show", IntDecimal(show)], b);
    AllCleanAppend(["show", IntDecimal(show)] + b, ["sequence", IntDecimal(sequence)]);
  }

  /** A fixed word, a decimal id and a closing word. */
  lemma WordIdWord(word: string, id: int, last: string)
    requires Clean(word) && Clean(last)
    ensures AllClean([word, IntDecimal(id), last])
  {
    DecimalIsClean(id);
  }

  lemma TailIsClean(r: Resource)
    ensures AllClean(TailSegments(r))
  {
    match r
    case SequenceRevision(_, _, _, v) => WordAndId("revision", v);
    case RevisionPanels(_, _, _, v) => WordIdWord("revision", v, "panels");
    case RevisionDialogues(_, _, _, v) => WordIdWord("revision", v, "dialogues");
    case PanelDialogues(_, _, _, p) => WordIdWord("panel", p, "dialogues");
  }

  lemma SegmentsAreClean(r: Resource)
    ensures AllClean(Segments(r))
  {
    HeadIsClean(r.show, r.episode, r.sequence);
    TailIsClean(r);
    AllCleanAppend(HeadSegments(r.show, r.episode, r.sequence), TailSegments(r));
  }

  lemma {:induction false} SlashedAvoids(xs: seq<string>, ch: char)
    requires ch != '/'
    requires forall i :: 0 <= i < |xs| ==> ch !in xs[i]
    ensures ch !in Slashed(xs)
    decreases |xs|
  {
    if |xs| > 0 {
      SlashedAvoids(xs[1..], ch);
      assert ch !in xs[0];
    }
  }

  /** No template carries a query string, so signing sees the whole path. */
  lemma PathHasNoQuery(r: Resource)
    ensures '?' !in Path(r)
    ensures Text.Before(Path(r), '?') == Path(r)
  {
    PathIsSlashedSegments(r);
    SegmentsAreClean(r);
    SlashedAvoids(Segments(r), '?');
  }

  /** Splitting a path at `/` gives an empty lead and then the segments. */
  lemma SplitPath(r: Resource)
    ensures Text.Split(Path(r), '/') == [""] + Segments(r)
  {
    PathIsSlashedSegments(r);
    SegmentsAreClean(r);
    SlashedIsJoin(Segments(r));
    var xs := [""] + Segments(r);
    forall i | 0 <= i < |xs|
      ensures '/' !in xs[i]
    {
      if i > 0 {
        assert xs[i] == Segments(r)[i - 1];
      }
    }
    Text.SplitJoin(xs, '/');
  }

  lemma ParseHeadWithEpisode(show: int, episode: int, rest: seq<string>)
    requires |rest| >= 1 && rest[0] == "sequence"
    ensures ParseSegments(["show", IntDecimal(show), "episode", IntDecimal(episode)] + rest)
         == ParseUnderSequence(show, Some(episode), rest)
  {
    var xs := ["show", IntDecimal(show), "episode", IntDecimal(episode)] + rest;
    ReadIntDecimal(show);
    ReadIntDecimal(episode);
    assert xs[4..] == rest;
  }

  lemma ParseHeadWithoutEpisode(show: int, rest: seq<string>)
    requires |rest| >= 1 && rest[0] == "sequence"
    ensures ParseSegments(["show", IntDecimal(show)] + rest) == ParseUnderSequence(show, None, rest)
  {
    var xs := ["show", IntDecimal(show)] + rest;
    ReadIntDecimal(show);
    assert xs[2..] == rest;
    assert xs[2] == "sequence";
  }

  /** The show and episode segments are read back, leaving `/sequence/...` to the next step. */
  lemma ParseHead(show: int, episode: Option<int>, sequence: int, tail: seq<string>)
    ensures ParseSegments(HeadSegments(show, episode, sequence) + tail)
         == ParseUnderSequence(show, episode, ["sequence", IntDecimal(sequence)] + tail)
  {
    var rest := ["sequence", IntDecimal(sequence)] + tail;
    if episode.Some? {
      assert HeadSegments(show, episode, sequence) + tail == ["show", IntDecimal(show), "episode", IntDecimal(episode.value)] + rest;
      ParseHeadWithEpisode(show, episode.value, rest);
    } else {
      assert HeadSegments(show, episode, sequence) + tail == ["show", IntDecimal(show)] + rest;
      ParseHeadWithoutEpisode(show, rest);
    }
  }

  lemma ParseSequenceRevision(show: int, episode: Option<int>, sequence: int, id: int)
    ensures ParseUnderSequence(show, episode, ["sequence", IntDecimal(sequence)] + ["revision", IntDecimal(id)])
         == Some(SequenceRevision(show, sequence, episode, id))
  {
    assert ["sequence", IntDecimal(sequence)] + ["revision", IntDecimal(id)] == ["sequence", IntDecimal(sequence), "revision", IntDecimal(id)] + [];
    ReadIntDecimal(sequence);
    ReadIntDecimal(id);
  }

  lemma ParseRevisionPanels(show: int, episode: Option<int>, sequence: int, id: int)
    ensures ParseUnderSequence(show, episode, ["sequence", IntDecimal(sequence)] + ["revision", IntDecimal(id), "panels"])
         == Some(RevisionPanels(show, sequence, episode, id))
  {
    assert ["sequence", IntDecimal(sequence)] + ["revision", IntDecimal(id), "panels"] == ["sequence", IntDecimal(sequence), "revision", IntDecimal(id)] + ["panels"];
    ReadIntDecimal(sequence);
    ReadIntDecimal(id);
  }

  lemma ParseRevisionDialogues(show: int, episode: Option<int>, sequence: int, id: int)
    ensures ParseUnderSequence(show, episode, ["sequence", IntDecimal(sequence)] + ["revision", IntDecimal(id), "dialogues"])
         == Some(RevisionDialogues(show, sequence, episode, id))
  {
    assert ["sequence", IntDecimal(sequence)] + ["revision", IntDecimal(id), "dialogues"] == ["sequence", IntDecimal(sequence), "revision", IntDecimal(id)] + ["dialogues"];
    ReadIntDecimal(sequence);
    ReadIntDecimal(id);
  }

  lemma ParsePanelDialogues(show: int, episode: Option<int>, sequence: int, id: int)
    ensures ParseUnderSequence(show, episode, ["sequence", IntDecimal(sequence)] + ["panel", IntDecimal(id), "dialogues"])
         == Some(PanelDialogues(show, sequence, episode, id))
  {
    assert ["sequence", IntDecimal(sequence)] + ["panel", IntDecimal(id), "dialogues"] == ["sequence", IntDecimal(sequence), "panel", IntDecimal(id)] + ["dialogues"];
    ReadIntDecimal(sequence);
    ReadIntDecimal(id);
  }

  /** The sequence, the kind and the id are read back. */
  lemma ParseTail(r: Resource)
    ensures ParseUnderSequence(r.show, r.episode, ["sequence", IntDecimal(r.sequence)] + TailSegments(r)) == Some(r)
  {
    match r
    case SequenceRevision(s, q, e, v) => ParseSequenceRevision(s, e, q, v);
    case RevisionPanels(s, q, e, v) => ParseRevisionPanels(s, e, q, v);
    case RevisionDialogues(s, q, e, v) => ParseRevisionDialogues(s, e, q, v);
    case PanelDialogues(s, q, e, p) => ParsePanelDialogues(s, e, q, p);
  }

  /** Every path reads back as the resource it was built from. */
  lemma ParsePath(r: Resource)
    ensures ParseResource(Path(r)) == Some(r)
  {
    SplitPath(r);
    assert ([""] + Segments(r))[1..] == Segments(r);
    ParseHead(r.show, r.episode, r.sequence, TailSegments(r));
    ParseTail(r);
  }

  /** Distinct resources have distinct paths. */
  lemma PathInjective(r: Resource, s: Resource)
    requires Path(r) == Path(s)
    ensures r == s
  {
    ParsePath(r);
    ParsePath(s);
  }

  /** A decimal never spells the word `episode`. */
  lemma DecimalIsNotEpisode(i: int)
    ensures IntDecimal(i) != "episode"
  {
    var d := IntDecimal(i);
    assert IsDigit(d[0]) || d[0] == '-';
  }

  lemma TailHasNoEpisode(r: Resource)
    ensures "episode" !in TailSegments(r)
  {
    match r
    case SequenceRevision(_, _, _, v) => DecimalIsNotEpisode(v);
    case RevisionPanels(_, _, _, v) => DecimalIsNotEpisode(v);
    case RevisionDialogues(_, _, _, v) => DecimalIsNotEpisode(v);
    case PanelDialogues(_, _, _, p) => DecimalIsNotEpisode(p);
  }

  lemma HeadHasEpisodeIffGiven(show: int, episode: Option<int>, sequence: int)
    ensures "episode" in [""] + HeadSegments(show, episode, sequence) <==> episode.Some?
  {
    var parts := [""] + HeadSegments(show, episode, sequence);
    if episode.Some? {
      assert parts[3] == "episode";
    } else {
      DecimalIsNotEpisode(show);
      DecimalIsNotEpisode(sequence);
      assert parts == ["", "show", IntDecimal(show), "sequence", IntDecimal(sequence)];
    }
  }

  /** The `episode` segment appears exactly when an episode id is given. */
  lemma EpisodeSegmentIffGiven(r: Resource)
    ensures "episode" in Text.Split(Path(r), '/') <==> r.episode.Some?
  {
    var head := [""] + HeadSegments(r.show, r.episode, r.sequence);
    assert Text.Split(Path(r), '/') == head + TailSegments(r) by {
      SplitPath(r);
    }
    HeadHasEpisodeIffGiven(r.show, r.episode, r.sequence);
    TailHasNoEpisode(r);
  }
}

=== FILE: requests.dfy ===
/** The signed headers of the four GET wrappers: each signs its own path with no body. */
module Requests {
  import opened Wrappers
  import opened Errors
  import opened DateTimes
  import opened Credentials
  import opened Signer
  import opened Headers
  import opened Paths
  import Text
  import Foreign

  /** `self.__get_headers(None, url, 'GET')` for the path of resource `r`. */
  function WrapperHeaders(lib: Foreign.Lib, c: Credentials, r: Resource, dt: DateTime, now: int,
                          reply: Option<Token>): (Result<Headers, Error>, Credentials)
  {
    GetHeaders(lib, c, NoContent, Path(r), "GET", dt, now, reply)
  }

  /** A GET wrapper's headers: it fails only when the token does or its secret is empty, and
      its Authorization signs the method, two empty lines, the timestamp and the whole path. */
  lemma WrapperHeadersSigned(lib: Foreign.Lib, c: Credentials, r: Resource, dt: DateTime, now: int,
                             reply: Option<Token>)
    ensures var h := WrapperHeaders(lib, c, r, dt, now, reply);
            && h.1 == GetToken(c, now, reply).1
            && (h.0.Success? <==> GetToken(c, now, reply).0.Success? && |GetToken(c, now, reply).0.value.1| > 0)
            && (h.0.Success? ==>
                  var (key, secret) := GetToken(c, now, reply).0.value;
                  && h.0.value.authorization == Prefix(key) + Signature(lib, secret, "GET" + "\n" + "\n\n" + IsoSeconds(dt) + "Z" + "\n" + Path(r))
                  && h.0.value.date == lib.httpDate(dt))
  {
    var out := WrapperHeaders(lib, c, r, dt, now, reply);
    if out.0.Success? {
      var (key, secret) := GetToken(c, now, reply).0.value;
      var s := Sign(lib, key, secret, Path(r), NoContent, "GET", JsonContentType, dt);
      assert s == Success(out.0.value.authorization);
      WrapperCanonical(dt, r);
      assert s.value == Prefix(key) + s.value[|Prefix(key)|..];
    }
  }

  /** A GET wrapper signs the method, two empty lines, the timestamp and its whole path. */
  lemma WrapperCanonical(dt: DateTime, r: Resource)
    ensures CanonicalString("GET", "", JsonContentType, dt, Path(r)) == "GET" + "\n" + "\n\n" + IsoSeconds(dt) + "Z" + "\n" + Path(r)
  {
    PathHasNoQuery(r);
    GetCanonical(dt, Path(r));
  }

  /** A bodiless GET of a path without a query string. */
  lemma GetCanonical(dt: DateTime, path: string)
    requires Text.Before(path, '?') == path
    ensures CanonicalString("GET", "", JsonContentType, dt, path) == "GET" + "\n" + "\n\n" + IsoSeconds(dt) + "Z" + "\n" + path
  {
    IsoFormatBeforeDot(dt);
    UpperGet();
  }

  lemma UpperGet()
    ensures Text.UpperAscii("GET") == "GET"
  {
    var up := Text.UpperAscii("GET");
    assert up[0] == 'G' && up[1] == 'E' && up[2] == 'T';
  }
}

=== FILE: signer.dfy ===
/** FNAUTH request signing: the canonical string of a request and its keyed signature. */
module Signer {
  import opened Wrappers
  import opened Errors
  import opened Hex
  import opened DateTimes
  import Json
  import Foreign
  import Text

  /** The request body handed to the signer, by its Python type. */
  datatype Content =
    | NoContent
    | Str(text: string)
    | Bytes(data: seq<byte>)
    | Dict(fields: seq<(string, Json.Value)>)
      /** Any other object, known only by its truth value. */
    | Other(truthy: bool)

  /** Python truthiness of the content. */
  predicate Truthy(content: Content) {
    match content
    case NoContent => false
    case Str(t) => |t| > 0
    case Bytes(b) => |b| > 0
    case Dict(f) => |f| > 0
    case Other(t) => t
  }

  /** `hashlib.md5(data).hexdigest()`. */
  function Md5Hex(lib: Foreign.Lib, data: seq<byte>): (r: string)
    ensures |r| == 32
    ensures forall i :: 0 <= i < |r| ==> IsLowerHexChar(r[i])
  {
    HexDigest(lib.md5(data))
  }

  /** `content_md5`: the hex MD5 of the content, or `""` when the content is falsy or of
      another type. A non-empty `str` reaches `hashlib.md5` unencoded and raises. Bytes are
      hashed over their hex encoding, a dict over its UTF-8 encoded `json.dumps`. */
  function Fingerprint(lib: Foreign.Lib, content: Content): (r: Result<string, Error>)
    ensures r.Failure? <==> content.Str? && |content.text| > 0
    ensures r.Failure? ==> r.error == TextNotHashable
    ensures r == Success("") <==> !Truthy(content) || content.Other?
    ensures r.Success? && r.value != "" ==> |r.value| == 32
    ensures r.Success? ==> forall i :: 0 <= i < |r.value| ==> IsLowerHexChar(r.value[i])
    ensures content.Bytes? && |content.data| > 0 ==> r == Success(Md5Hex(lib, Hexlify(content.data)))
    ensures content.Dict? && |content.fields| > 0 ==> r == Success(Md5Hex(lib, lib.utf8(lib.jsonDumps(content.fields))))
  {
    if !Truthy(content) then Success("")
    else
      match content
      case Str(_) => Failure(TextNotHashable)
      case Bytes(b) => Success(Md5Hex(lib, Hexlify(b)))
      case Dict(f) => Success(Md5Hex(lib, lib.utf8(lib.jsonDumps(f))))
      case _ => Success("")
  }

  /** What MD5 sees for non-empty bytes: `2n` lower-case hex digit codes that determine the bytes. */
  lemma BytesFingerprintHashesHex(lib: Foreign.Lib, data: seq<byte>)
    requires |data| > 0
    ensures Fingerprint(lib, Bytes(data)) == Success(Md5Hex(lib, Hexlify(data)))
    ensures |Hexlify(data)| == 2 * |data|
    ensures forall i :: 0 <= i < |Hexlify(data)| ==> IsLowerHexCode(Hexlify(data)[i])
    ensures Unhexlify(Hexlify(data)) == Some(data)
  {
    UnhexlifyHexlify(data);
  }

  /** The string that is signed, assembled as `__fn_sign` does it: the upper-cased httpMethod, the
      fingerprint block, the timestamp cut at its first `.` with `Z`, and the URL cut at its first `?`. */
  function CanonicalString(httpMethod: string, md5: string, contentType: string, dt: DateTime, url: string): string
  {
    Text.UpperAscii(httpMethod) + "\n"
    + (if md5 != "" then md5 + "\n" + contentType + "\n" else "\n\n")
    + Text.Before(IsoFormat(dt), '.') + "Z" + "\n"
    + Text.Before(url, '?')
  }

  /** The five lines of the canonical string, stated independently of how it is assembled. */
  function CanonicalLines(httpMethod: string, md5: string, contentType: string, dt: DateTime, url: string): seq<string>
  {
    [ Text.UpperAscii(httpMethod),
      md5,
      if md5 != "" then contentType else "",
      IsoSeconds(dt) + "Z",
      Text.Before(url, '?') ]
  }

  /** The layout of the canonical string over plain strings. */
  lemma FiveLines(u: string, m: string, c: string, t: string, p: string)
    ensures u + "\n" + (if m != "" then m + "\n" + c + "\n" else "\n\n") + t + "Z" + "\n" + p
         == Text.Join([u, m, if m != "" then c else "", t + "Z", p], '\n')
  {
    var c' := if m != "" then c else "";
    Text.JoinFive(u, m, c', t + "Z", p, '\n');
    assert (if m != "" then m + "\n" + c + "\n" else "\n\n") == m + ['\n'] + c' + ['\n'] by {
      if m == "" {
        assert m + ['\n'] + c' + ['\n'] == ['\n', '\n'];
      }
    }
  }

  /** The canonical string is its five lines joined by newlines. */
  lemma CanonicalLayout(httpMethod: string, md5: string, contentType: string, dt: DateTime, url: string)
    ensures CanonicalString(httpMethod, md5, contentType, dt, url) == Text.Join(CanonicalLines(httpMethod, md5, contentType, dt, url), '\n')
  {
    IsoFormatBeforeDot(dt);
    FiveLines(Text.UpperAscii(httpMethod), md5, contentType, IsoSeconds(dt), Text.Before(url, '?'));
  }

  /** When the httpMethod, content type and the URL before its first `?` hold no newline, splitting the canonical string on
      newlines recovers its five lines, so it holds exactly four newlines. */
  lemma CanonicalLinesRecovered(lib: Foreign.Lib, httpMethod: string, content: Content, contentType: string, dt: DateTime, url: string)
    requires Fingerprint(lib, content).Success?
    requires '\n' !in httpMethod && '\n' !in contentType && '\n' !in Text.Before(url, '?')
    ensures var md5 := Fingerprint(lib, content).value;
            && Text.Split(CanonicalString(httpMethod, md5, contentType, dt, url), '\n') == CanonicalLines(httpMethod, md5, contentType, dt, url)
            && Text.Count(CanonicalString(httpMethod, md5, contentType, dt, url), '\n') == 4
  {
    var md5 := Fingerprint(lib, content).value;
    var xs := CanonicalLines(httpMethod, md5, contentType, dt, url);
    CanonicalLayout(httpMethod, md5, contentType, dt, url);
    Text.UpperAsciiKeeps(httpMethod, '\n');
    IsoSecondsHasNoDot(dt);
    assert '\n' !in xs[3];
    Text.SplitJoin(xs, '\n');
    Text.CountJoin(xs, '\n');
  }

  /** Only the URL before its first `?` is signed: appending a query string changes nothing. */
  lemma CanonicalIgnoresQuery(httpMethod: string, md5: string, contentType: string, dt: DateTime, path: string, query: string)
    requires '?' !in path
    ensures CanonicalString(httpMethod, md5, contentType, dt, path + "?" + query) == CanonicalString(httpMethod, md5, contentType, dt, path)
  {
    Text.BeforeSeparator(path, '?', query);
  }

  /** Only whole seconds of the timestamp are signed. */
  lemma CanonicalIgnoresMicroseconds(httpMethod: string, md5: string, contentType: string, dt1: DateTime, dt2: DateTime, url: string)
    requires WholeSeconds(dt1) == WholeSeconds(dt2)
    ensures CanonicalString(httpMethod, md5, contentType, dt1, url) == CanonicalString(httpMethod, md5, contentType, dt2, url)
  {
    IsoFormatBeforeDot(dt1);
    IsoFormatBeforeDot(dt2);
    assert IsoSeconds(dt1) == IsoSeconds(dt2);
  }

  /** The literal that opens every signed header value. */
  function Prefix(accessKeyId: string): string {
    "FNAUTH " + accessKeyId + ":"
  }

  /** `base64(HMAC-SHA256(secret, canonical))` over the UTF-8 encodings of both. */
  function Signature(lib: Foreign.Lib, secretAccessKey: string, canonical: string): string {
    lib.base64(lib.hmacSha256(lib.utf8(secretAccessKey), lib.utf8(canonical)))
  }

  /** `__fn_sign`: the Authorization value for one request. A non-empty `str` body fails first;
      otherwise an empty secret fails; otherwise the value is the prefix and the signature of the
      canonical string. */
  function Sign(lib: Foreign.Lib, accessKeyId: string, secretAccessKey: string, url: string,
                content: Content, httpMethod: string, contentType: string, dt: DateTime): (r: Result<string, Error>)
    ensures r.Failure? <==> (content.Str? && |content.text| > 0) || |secretAccessKey| == 0
    ensures content.Str? && |content.text| > 0 ==> r == Failure(TextNotHashable)
    ensures !(content.Str? && |content.text| > 0) && |secretAccessKey| == 0 ==> r == Failure(EmptySecret)
    ensures r.Success? ==> Prefix(accessKeyId) <= r.value
    ensures r.Success? ==>
              r.value[|Prefix(accessKeyId)|..]
              == Signature(lib, secretAccessKey, CanonicalString(httpMethod, Fingerprint(lib, content).value, contentType, dt, url))
  {
    var md5 :- Fingerprint(lib, content);
    var raw := CanonicalString(httpMethod, md5, contentType, dt, url);
    if |secretAccessKey| == 0 then Failure(EmptySecret)
    else Success(Prefix(accessKeyId) + Signature(lib, secretAccessKey, raw))
  }

  /** The signature depends on the URL only up to its query string and on the timestamp only up
      to whole seconds. */
  lemma SignIgnoresQueryAndMicroseconds(lib: Foreign.Lib, accessKeyId: string, secretAccessKey: string,
                                        path: string, query: string, content: Content, httpMethod: string,
                                        contentType: string, dt1: DateTime, dt2: DateTime)
    requires '?' !in path
    requires WholeSeconds(dt1) == WholeSeconds(dt2)
    ensures Sign(lib, accessKeyId, secretAccessKey, path + "?" + query, content, httpMethod, contentType, dt1)
            == Sign(lib, accessKeyId, secretAccessKey, path, content, httpMethod, contentType, dt2)
  {
    var md5 := Fingerprint(lib, content);
    if md5.Success? {
      CanonicalIgnoresQuery(httpMethod, md5.value, contentType, dt1, path, query);
      CanonicalIgnoresMicroseconds(httpMethod, md5.value, contentType, dt1, dt2, path);
    }
  }
}

=== FILE: text.dfy ===
/** The string operations the signer uses: `split`, `join` and ASCII `upper`. */
module Text {

  /** `s.split(c)[0]`: the part of `s` before the first `c`, or all of `s` when there is none. */
  function Before(s: string, c: char): (r: string)
    ensures c !in r
    ensures r <= s
    ensures c in s <==> |r| < |s|
    ensures |r| < |s| ==> s[|r|] == c
    decreases |s|
  {
    if |s| == 0 then ""
    else if s[0] == c then ""
    else [s[0]] + Before(s[1..], c)
  }

  /** `s.split(c)`: the pieces of `s` between occurrences of `c`, in order. */
  function Split(s: string, c: char): (r: seq<string>)
    ensures |r| >= 1
    ensures r[0] == Before(s, c)
    ensures forall i :: 0 <= i < |r| ==> c !in r[i]
    decreases |s|
  {
    var h := Before(s, c);
    if |h| == |s| then [s] else [h] + Split(s[|h| + 1..], c)
  }

  /** `c.join(xs)`. */
  function Join(xs: seq<string>, c: char): string
  {
    if |xs| == 0 then ""
    else if |xs| == 1 then xs[0]
    else xs[0] + [c] + Join(xs[1..], c)
  }

  lemma JoinFive(a: string, b: string, d: string, e: string, f: string, c: char)
    ensures Join([a, b, d, e, f], c) == a + [c] + b + [c] + d + [c] + e + [c] + f
  {
    assert Join([f], c) == f;
    assert Join([e, f], c) == e + [c] + f by { assert [e, f][1..] == [f]; }
    assert Join([d, e, f], c) == d + [c] + (e + [c] + f) by { assert [d, e, f][1..] == [e, f]; }
    assert Join([b, d, e, f], c) == b + [c] + (d + [c] + (e + [c] + f)) by { assert [b, d, e, f][1..] == [d, e, f]; }
    assert Join([a, b, d, e, f], c) == a + [c] + (b + [c] + (d + [c] + (e + [c] + f))) by { assert [a, b, d, e, f][1..] == [b, d, e, f]; }
  }

  /** The number of occurrences of `c` in `s`. */
  function Count(s: string, c: char): nat
  {
    multiset(s)[c]
  }

  /** The piece before a separator is found again by `Before`. */
  lemma {:induction false} BeforeSeparator(x: string, c: char, y: string)
    requires c !in x
    ensures Before(x + [c] + y, c) == x
    decreases |x|
  {
    if |x| == 0 {
      assert (x + [c] + y)[0] == c;
    } else {
      assert (x + [c] + y)[1..] == x[1..] + [c] + y;
      BeforeSeparator(x[1..], c, y);
      assert [x[0]] + x[1..] == x;
    }
  }

  /** Splitting a join gives the pieces back, when no piece contains the separator. */
  lemma {:induction false} SplitJoin(xs: seq<string>, c: char)
    requires |xs| >= 1
    requires forall i :: 0 <= i < |xs| ==> c !in xs[i]
    ensures Split(Join(xs, c), c) == xs
    decreases |xs|
  {
    if |xs| > 1 {
      var rest := Join(xs[1..], c);
      var s := xs[0] + [c] + rest;
      assert Join(xs, c) == s;
      BeforeSeparator(xs[0], c, rest);
      var h := Before(s, c);
      assert h == xs[0];
      assert s[|h| + 1..] == rest;
      assert Split(s, c) == [h] + Split(rest, c);
      SplitJoin(xs[1..], c);
      assert [xs[0]] + xs[1..] == xs;
    }
  }

  /** Joining a split gives the string back. */
  lemma {:induction false} JoinSplit(s: string, c: char)
    ensures Join(Split(s, c), c) == s
    decreases |s|
  {
    var h := Before(s, c);
    if |h| < |s| {
      var t := s[|h| + 1..];
      var pieces := Split(t, c);
      assert Split(s, c) == [h] + pieces;
      JoinSplit(t, c);
      assert Join([h] + pieces, c) == h + [c] + Join(pieces, c) by {
        assert ([h] + pieces)[0] == h;
        assert ([h] + pieces)[1..] == pieces;
      }
      assert s == h + [c] + t;
    } else {
      assert h == s;
    }
  }

  /** A join of separator-free pieces holds exactly one separator fewer than it has pieces. */
  lemma {:induction false} CountJoin(xs: seq<string>, c: char)
    requires |xs| >= 1
    requires forall i :: 0 <= i < |xs| ==> c !in xs[i]
    ensures Count(Join(xs, c), c) == |xs| - 1
    decreases |xs|
  {
    if |xs| > 1 {
      CountJoin(xs[1..], c);
      assert multiset(xs[0] + [c] + Join(xs[1..], c)) == multiset(xs[0]) + multiset{c} + multiset(Join(xs[1..], c));
    }
  }

  /** Python's `str.upper` on one ASCII character. */
  function UpperChar(ch: char): char
  {
    if 'a' <= ch <= 'z' then (ch as int - 32) as char else ch
  }

  /** `s.upper()` for ASCII letters; every other character is kept. */
  function UpperAscii(s: string): (r: string)
    ensures |r| == |s|
    ensures forall i :: 0 <= i < |r| ==> !('a' <= r[i] <= 'z')
    ensures forall i :: 0 <= i < |s| ==> r[i] == s[i] || ('a' <= s[i] <= 'z' && r[i] as int == s[i] as int - 32)
  {
    seq(|s|, i requires 0 <= i < |s| => UpperChar(s[i]))
  }

  /** Upper-casing twice is upper-casing once. */
  lemma UpperAsciiIdempotent(s: string)
    ensures UpperAscii(UpperAscii(s)) == UpperAscii(s)
  {
  }

  /** Upper-casing neither adds nor removes any character that is not an ASCII letter. */
  lemma UpperAsciiKeeps(s: string, ch: char)
    requires !('A' <= ch <= 'Z') && !('a' <= ch <= 'z')
    ensures ch in UpperAscii(s) <==> ch in s
  {
    var r := UpperAscii(s);
    if ch in s {
      var i :| 0 <= i < |s| && s[i] == ch;
      assert r[i] == ch;
    }
    if ch in r {
      var i :| 0 <= i < |r| && r[i] == ch;
      assert s[i] == ch;
    }
  }
}

=== FILE: wrappers.dfy ===
/** Failure-compatible Option and Result, usable with `:-`. */
module Wrappers {

  datatype Option<+T> = None | Some(value: T) {

    predicate IsFailure() {
      None?
    }

    function PropagateFailure<U>(): Option<U>
      requires None?
    {
      None
    }

    function Extract(): T
      requires Some?
    {
      value
    }
  }

  datatype Result<+T, +E> = Success(value: T) | Failure(error: E) {

    predicate IsFailure() {
      Failure?
    }

    function PropagateFailure<U>(): Result<U, E>
      requires Failure?
    {
      Failure(error)
    }

    function Extract(): T
      requires Success?
    {
      value
    }
  }
}

/** The failures the signing core raises, named after the Python exception each one is. */
module Errors {

  datatype Error =
      /** `hashlib.md5` handed a non-empty `str`: a TypeError in Python 3. */
    | TextNotHashable
      /** The `ValueError` raised when signing with an empty secret. */
    | EmptySecret
      /** A refresh with no stored hostname, login or password: `None + str` is a TypeError. */
    | MissingIdentity
      /** A refresh whose authenticate call returned `None`: subscripting it is a TypeError. */
    | NoToken
      /** `strptime` rejected the expiry date: a ValueError. */
    | UnparsableExpiry
}
